=== FILE: README.md ===
# Network usage exporter — a Dafny model

The exporter answers Prometheus scrapes with per-interface network
counters. On a request it serves a cached text; when the cache is older than
its duration it runs `ip -s -s link show`, parses the report into a table
`interface name → { "up", counters… }` and renders that table in the
Prometheus text exposition format.

This project models the three pieces of `main.go` that do the work, as pure
functions with their properties proved:

- **Report parser** (`GetData`). The modules are:
  - `Scanner`: the `bufio.Scanner` line splitting, and `Render`, its inverse on lines that hold no newline and do not end in a carriage return.
  - `Strings`: `strings.Fields`, `strings.HasPrefix` and `strings.Split(…, "@")[0]`.
  - `HeaderRegex`: a hand-written matcher for `^[0-9]+: (.*?): .*?state (.*?) .*$`, proved equal to the leftmost-first reading of the pattern.
  - `Report`: the line-by-line state machine, a fold over the lines. A panic in the source becomes an `Err` value of `ParseError`.
- **Exposition formatter** (`DataToString`): module `Exposition`.
  - It defines the 22 metrics in output order.
  - It defines the lines they produce and the text with its newlines.
  - Go visits a map in an unspecified order, possibly a different one in each of the 22 loops. The formatter therefore takes one interface order per metric block. Its properties hold for any orders that list every interface once.
- **Cache** (`GetCache`, `UpdateCache`): module `SnapshotCache`.
  - The clock readings and the command's output are parameters.
  - `now` is the reading taken for the expiry test. `finished` is the one stored after the refresh.

`Results` holds the `Option` and `Result` types. `Seqs` holds generic facts about mapping over sequences and concatenating them.

Three behaviours of the code worth noting:

- **22 counters.** The code has 22 counters and 22 metric blocks.
- **No stale text after expiry.** A failed refresh leaves the stored text and time untouched. But the request that saw the expired cache gets an error, not the old text. Every later request also finds the cache expired and runs the command again. So old text is never served once the cache has expired.
- **A header line keeps pending flags.** A header line does not clear "next line is data" flags left pending by an earlier interface.

## Model

| member | source | states |
|---|---|---|
| Strings.Fields | main.go:229 | every field `strings.Fields` returns is a non-empty run of non-space characters (that the fields are the maximal such runs is `FieldsOfRow` with `FieldsAreRuns`) |
| Strings.FieldsKeepText | main.go:229 | the fields, concatenated, are exactly the non-space characters of the row in order: nothing is lost or invented |
| Strings.FieldsOfRow | main.go:229-235 | splitting a row of words gives back exactly those words, whatever white space comes before the first, between any two and after the last |
| Strings.FieldsAreRuns | main.go:229 | every string is such a row of its own fields with white space around them, so no field is split or merged with another |
| Strings.Before | main.go:219 | `strings.Split(name, "@")[0]` is the longest prefix of the name without `@`, stopping at the first `@` or at the end |
| Strings.BeforeUnique | main.go:219 | any prefix that is free of `@` and ends at an `@` or at the end of the name is that result |
| Strings.FindFrom | main.go:34 | a position the search returns is an occurrence of the pattern at or after the start |
| Strings.FindFromFirst | main.go:34 | the search misses no occurrence: when the pattern occurs at or after the start, the search succeeds at that occurrence or an earlier one |
| Strings.FindFromBefore | main.go:34 | a successful search returns the first occurrence: every occurrence after the start is at or after the returned one |
| Scanner.DropCR | main.go:210-211 | one trailing carriage return, and only that, is dropped from a scanned line |
| Scanner.ScanLines | main.go:207-211 | scanned lines hold no newline; a non-empty output yields at least one line and an empty one none (with `ScanSplit` and `ScanFinal` this fixes the result on every text) |
| Scanner.Render | main.go:79-191 | text built by appending `"\n"` to each line is empty only for no lines; otherwise it opens with the first line and a newline and ends with a newline |
| Scanner.RenderNewlines | main.go:77-195 | text built by appending `"\n"` to each line has exactly one newline per line |
| Scanner.ScanSplit | main.go:207-211 | the scanner splits at the first newline: the line before it, without one trailing carriage return, then the lines of the rest |
| Scanner.ScanFinal | main.go:207-211 | a final piece that no newline ends is still one line, without one trailing carriage return |
| Scanner.ScanRender | main.go:207-211 | scanning the text of newline-terminated lines gives those lines back, when no line holds a newline or ends in a carriage return |
| HeaderRegex.DigitRun | main.go:34 | length of the maximal leading run of decimal digits |
| HeaderRegex.FindBounds | main.go:34 | the boundaries of a match lie in order inside the line, the index digits are the whole leading digit run followed by `": "`, and the line holds no newline |
| HeaderRegex.BoundsAfterName | main.go:34 | after the first group, the matcher's `"state "` and closing space are the first occurrences of each |
| HeaderRegex.MatchHeader | main.go:34 | the captured interface name and state never hold a newline |
| HeaderRegex.DigitsDetermined | main.go:34 | in every match of the pattern, `[0-9]+` covers the whole leading digit run |
| HeaderRegex.FoundIsMatching | main.go:34 | the boundaries the matcher settles on form a match of the whole pattern |
| HeaderRegex.MatcherFirst | main.go:34 | every match of the pattern ends each of its parts no earlier than the matcher's boundaries do |
| HeaderRegex.SearchesSucceed | main.go:34 | wherever the pattern's separators occur in order, each of the matcher's searches succeeds |
| HeaderRegex.MatchedAt | main.go:34 | when the matcher succeeds, its groups come from a match whose boundaries are at or before those of every other match |
| HeaderRegex.MatchFound | main.go:34 | any match of the pattern makes the matcher succeed |
| HeaderRegex.MatchHeaderIsLeftmostFirst | main.go:34 | the matcher succeeds exactly on the lines the pattern matches, and returns the groups of the leftmost-first match |
| Report.SetFlag | main.go:236-273 | setting or clearing one section's pending flag leaves the table, the current interface and the other three flags alone |
| Report.Pending | main.go:227-264 | the section whose row comes next: RX before TX before RX errors before TX errors, and none when no flag is set |
| Report.IsHeaderLine | main.go:212-213 | a line names an interface exactly when it is non-empty and does not start with a space |
| Report.Interface | main.go:219 | the table key is a prefix of the captured name without `@`, stopping at the first `@` or the end of the name |
| Report.UpValue | main.go:216-224 | `up` is "0" exactly when the captured state is `DOWN`, and "1" otherwise |
| Report.TitlesExclusive | main.go:265-273 | no line starts with two different section titles |
| Report.TitlesExclusiveAll | main.go:265-273 | no line starts with two different section titles, for all pairs at once |
| Report.TitleOf | main.go:265-273 | the section announced by a line is the one whose title the line starts with, and none when it starts with no title |
| Report.CountersDistinct | main.go:230-263 | each section assigns its counters to distinct keys |
| Report.Assign | main.go:230-235 | after assigning a row, the record has exactly its old keys plus the section's counter names; counter `n` holds field `n`; no other key changes |
| Report.Fill | main.go:230-235 | filling a row into the current record changes no other interface and adds the counters to that record only |
| Report.Consume | main.go:227-264 | a data row succeeds iff a current record exists and the row has enough fields. A row with no fields, or too few, fails as a short row. A non-empty row before any header fails as "no interface". On success the first fields go in order to the section's counters, the flag is cleared, and nothing else changes |
| Report.BlankLine | main.go:212 | an empty line changes neither the table, the current interface nor any pending flag |
| Report.HeaderStep | main.go:213-226 | an unmatched header line is an error. A matched one makes the name cut at `@` current, with a fresh record holding only `up`. That record replaces any earlier one, adds that key to the table, changes no other interface and keeps the pending flags |
| Report.DataRowStep | main.go:227-264 | while a flag is pending, an indented non-empty line is consumed as the row of the highest-priority pending section, even when it looks like a section title |
| Report.TitleStep | main.go:265-273 | with no flag pending, a section title sets that section's flag, leaves the other three clear and changes nothing else; any other indented line changes nothing |
| Report.Step | main.go:211-274 | one line fails only as an unmatched header or a consumed row that is at fault, and the error names that line. A header line succeeds iff the pattern matches it. No interface is ever removed, and only a header line changes the current interface |
| Report.Run | main.go:210-275 | a failed parse names a line of the report whose shape explains the error: a header line the pattern does not match, or a non-empty indented line with too few fields or with some field. A successful one matched every header line and removed no interface. Where the parse stops, and that a failing row was consumed and came before every header, are `RunStopsAt`, `RowErrorConsumed` and `NoInterfaceBeforeHeaders` |
| Report.RunStopsAt | main.go:210-275 | a failed parse stops at one line: every line before it runs without error, and the step on that line gives the error, as the exporter panics at the first line it cannot handle |
| Report.RowErrorConsumed | main.go:227-264 | a short row or a row without an interface is the line the parser consumed as the row of a pending section, and its error is that of consuming it |
| Report.RunCurrentInTable | main.go:213-226 | once a header line has run, the current interface has a record, and it keeps one for the rest of the parse |
| Report.NoInterfaceBeforeHeaders | main.go:227-235 | a parse fails for want of an interface only on a row that comes before every header line of the report |
| Report.Parse | main.go:197-276 | a parsed table's keys are exactly the names, cut at `@`, of the report's header lines. Every record has `up` equal to "0" or "1" and otherwise only the 22 counters, every value is one word without white space, and no interface name holds a newline. A failure names an offending line |
| Report.RunAppend | main.go:210-276 | parsing two stretches of lines is parsing the first and continuing from its state with the second; an error stops the parse |
| Report.NonBlank | main.go:212 | the lines kept are all non-empty, and every non-empty line is kept, as often as it occurs |
| Report.RunIgnoresBlankLines | main.go:212 | removing the empty lines from a report does not change the parse |
| Report.RunKeys | main.go:213-226 | a successful parse adds exactly the interface names of the header lines to the table |
| Report.FillWellFormed | main.go:230-263 | filling counters into a record keeps every record well formed |
| Report.CountersAreCounters | main.go:230-263 | no section writes the `up` field, and every name it writes is a counter |
| Report.ConsumeWellFormed | main.go:227-264 | consuming a row keeps the table well formed |
| Report.HeaderWellFormed | main.go:213-226 | a matched header line keeps the table well formed: its name holds no newline and its fresh record holds only `up` |
| Report.InsertWellFormed | main.go:224-226 | storing a well-formed record under a name without a newline keeps the table well formed |
| Report.StepWellFormed | main.go:212-274 | one line keeps the table well formed |
| Report.RunWellFormed | main.go:210-276 | the parse keeps the table well formed |
| Exposition.MetricsCount | main.go:80-191 | there are 22 metric blocks |
| Exposition.SectionMetricsMatch | main.go:80-191 | the metric blocks of each section report that section's counters, in the order of its row |
| Exposition.MetricsMatchCounters | main.go:80-191 | the metrics report the parser's counters, section by section in row order |
| Exposition.Field | main.go:83 | a field present in the record is read as stored, a missing one as the empty string; in a well-formed table it is one word without white space |
| Exposition.Sample | main.go:83 | a sample line is the metric name, then the labels `{interface="key",up="up"}` with the interface's name and `up` field, then a space and the counter's value. Past the name, the line of an interface of a well-formed table holds no newline |
| Exposition.Lines | main.go:77-195 | the output lines open with the `# HELP` and `# TYPE` lines of the first metric, even for an empty table |
| Exposition.DataToString | main.go:77-195 | the text opens with the first `# HELP` line and a newline, and always ends with a newline |
| Exposition.EnumerationTail | main.go:82 | after its first key, the rest of a pass over the table visits the table without that key |
| Exposition.EnumerationLength | main.go:82 | one pass of `range` over the table visits as many keys as the table has |
| Exposition.EnumerationMultiplicity | main.go:82 | one pass of `range` visits every key of the table exactly once and nothing else |
| Exposition.EnumerationsPermute | main.go:82 | two passes over the same table visit the same keys, possibly in a different order |
| Exposition.OrdersLength | main.go:80-191 | every block visits as many interfaces as the table has |
| Exposition.LinesLength | main.go:77-195 | the output has 22·(2+N) lines for N interfaces, whatever counters the records hold |
| Exposition.BlockAt | main.go:77-195 | block `b` occupies lines `b·(2+N)` to `b·(2+N) + 2 + N` of the output |
| Exposition.Layout | main.go:77-195 | the output is the 22 metric blocks in order, each `2 + N` lines long |
| Exposition.HeadsAt | main.go:80-81 | block `b` opens with the `# HELP` and `# TYPE … counter` lines of metric `b` |
| Exposition.BlockSample | main.go:82-84 | after its two heading lines, a block has the sample line of its `j`-th interface at position `2 + j` |
| Exposition.SampleAt | main.go:82-84 | output line `b·(2+N) + 2 + j` is the line `metric{interface="key",up="up"} value` for the `j`-th interface that block `b` visits |
| Exposition.EverySample | main.go:82-84 | every interface gets a line for every metric; a counter missing from its record still gets a line, with an empty value |
| Exposition.AllSamples | main.go:80-191 | every interface has a sample line for every one of the 22 metrics |
| Exposition.OnlySamplesOfTable | main.go:77-195 | every output line is a heading of a metric or a sample of a metric for an interface of the table |
| Exposition.OrderIrrelevant | main.go:82 | whatever order each loop visits the interfaces in, the output holds the same lines, only in a different order |
| SnapshotCache.ExpiryBoundary | main.go:66 | the cache is still fresh when exactly the duration has passed and stale one nanosecond later; once stale it stays stale |
| SnapshotCache.GetData | main.go:197-276 | a failed command is an error. Otherwise the result is the parser's table for the scanned output, or the parser's own error; a parsed table is well formed with the header names as keys |
| SnapshotCache.Refresh | main.go:71-74 | a refresh gives the rendered table of a successful `GetData`, or that call's error. The rendered lines are 22 blocks of `2 + N` lines and hold a sample of every metric for every interface |
| SnapshotCache.GetCache | main.go:65-75 | the command runs iff strictly more than the duration has passed. A fresh cache is served unchanged. A successful refresh stores the new text with the time it finished. A failed one leaves text and time untouched |
| SnapshotCache.FreshWindow | main.go:65-75 | after a successful refresh, requests until the duration has passed are served the same text without running the command |
| SnapshotCache.FailureRetries | main.go:65-75 | after a failed refresh, the next request runs the command again |
| SnapshotCache.NeverStale | main.go:65-74 | an expired cache never serves its old text: a request gets the freshly rendered table or an error |

## Left out

- Running `ip -s -s link show` (main.go:201) is an external process. Its result is a parameter: the standard output, or a failure.
- The HTTP handlers and `StartServer` with its restart after a panic (main.go:36-63) are network plumbing. The recovered panic that becomes a 500 reply is the `Err` branch of the reply.
- `/metrics` passes the cached text to `fmt.Fprintf` as a format string (main.go:46). A `%` in an interface name would then be rewritten. The model stops at the text handed over.
- Flag parsing and `time.ParseDuration` (main.go:27-32) are left out. The cache duration is an integer parameter.
- `time.Now` is left out. Times are integer nanoseconds given as parameters.
- `time.Time.Sub` saturates at the largest `time.Duration`; that saturation is not modelled. Times are unbounded integers.
- The zero `cacheTime` before the first request is not modelled; the caller chooses the initial cache.
- Concurrent requests reach the global cache without a lock. Interleavings are not modelled; each request is one atomic step.
- `bufio.Scanner` stops at a 64 KiB token; lines are unbounded here.
- Strings are sequences of code points, not UTF-8 bytes. `strings.Fields` and the scanner see the same characters either way, except for invalid UTF-8.
- A general regular-expression engine is not modelled; only the one header pattern is.
- Exposition.DataToString: does not state that scanning the served text gives back exactly its 22·(2+N) lines (`ScanLines(DataToString(t, o)) == Lines(t, o)`). That would need `Scanner.ScanRender` applied to the output, and so a proof that none of the 44 fixed help and type lines holds a newline, which is out of the solver's reach here. The contract states the text is non-empty, opens with the first help line and a newline, and ends with a newline; the line structure is stated on `Exposition.Lines` (see `Layout`), and the text is those lines each followed by `"\n"`.

=== FILE: cache.dfy ===
/** The response cache (`GetCache` and `UpdateCache`): the rendered metrics
    text and the time it was rendered, refreshed by running the report
    command when a request finds it older than the cache duration. */
module SnapshotCache {
  import opened Results
  import opened Report
  import Scanner
  import Exposition

  /** The cached text and when it was stored, in nanoseconds on the
      exporter's clock. */
  datatype Cache = Cache(text: string, time: int)

  /** What running `ip -s -s link show` gave: its standard output, or a
      failure to start it or a non-zero exit. */
  datatype Output = Output(stdout: string) | Failed

  /** Why a refresh produced no text. */
  datatype RefreshError = CommandFailed | BadReport(error: ParseError)

  /** The outcome of one request: the text served or the error that turned
      into an internal-server-error reply, the cache afterwards, and whether
      the report command was run. */
  datatype Served = Served(reply: Result<string, RefreshError>, cache: Cache, ran: bool)

  /** The cache is stale when strictly more than `ttl` has passed since it
      was stored. */
  predicate Expired(c: Cache, now: int, ttl: int) {
    now - c.time > ttl
  }

  /** A cache exactly `ttl` old is still fresh and one a nanosecond older is
      stale; once stale, it stays stale at every later time. */
  lemma ExpiryBoundary(c: Cache, ttl: int, now: int, later: int)
    ensures !Expired(c, c.time + ttl, ttl) && Expired(c, c.time + ttl + 1, ttl)
    ensures Expired(c, now, ttl) && now <= later ==> Expired(c, later, ttl)
  {
  }

  /** `GetData`: the table read from the command output. */
  function GetData(out: Output): (r: Result<Table, RefreshError>)
    ensures out.Failed? ==> r == Err(CommandFailed)
    ensures out.Output? ==> (r.Ok? <==> Parse(Scanner.ScanLines(out.stdout)).Ok?)
    ensures out.Output? && r.Ok? ==> r.value == Parse(Scanner.ScanLines(out.stdout)).value
    ensures out.Output? && r.Err? ==> r.error == BadReport(Parse(Scanner.ScanLines(out.stdout)).error)
    ensures r.Ok? ==> WellFormed(r.value)
    ensures r.Ok? ==> r.value.Keys == HeaderKeys(Scanner.ScanLines(out.stdout))
  {
    match out
    case Failed => Err(CommandFailed)
    case Output(stdout) =>
      var lines := Scanner.ScanLines(stdout);
      match Parse(lines)
      case Err(e) => Err(BadReport(e))
      case Ok(t) => Ok(t)
  }

  /** `UpdateCache`: the new text, or the error that aborted the refresh. */
  function Refresh(out: Output, orders: seq<seq<string>>): (r: Result<string, RefreshError>)
    requires |orders| == |Exposition.Metrics|
    requires GetData(out).Ok? ==> Exposition.ValidOrders(GetData(out).value, orders)
    ensures r.Ok? <==> GetData(out).Ok?
    ensures r.Err? ==> r.error == GetData(out).error
    ensures r.Ok? ==> r.value == Exposition.DataToString(GetData(out).value, orders)
    ensures r.Ok? ==> |Exposition.Lines(GetData(out).value, orders)| == 22 * (2 + |GetData(out).value|)
    ensures r.Ok? ==> forall b, key :: 0 <= b < |Exposition.Metrics| && key in GetData(out).value ==>
              Exposition.Sample(Exposition.Metrics[b], GetData(out).value, key) in Exposition.Lines(GetData(out).value, orders)
  {
    match GetData(out)
    case Err(e) => Err(e)
    case Ok(t) =>
      Exposition.OrdersLength(t, orders);
      Exposition.LinesLength(t, orders);
      Exposition.AllSamples(t, orders);
      Ok(Exposition.DataToString(t, orders))
  }

  /** `GetCache`: serve the cached text while it is fresh; otherwise run the
      command and serve the new text, which is stored with the time the
      refresh finished. A failed refresh leaves the cache as it was. */
  function GetCache(c: Cache, ttl: int, now: int, finished: int, out: Output, orders: seq<seq<string>>): (r: Served)
    requires |orders| == |Exposition.Metrics|
    requires GetData(out).Ok? ==> Exposition.ValidOrders(GetData(out).value, orders)
    ensures r.ran <==> Expired(c, now, ttl)
    ensures !Expired(c, now, ttl) ==> r.reply == Ok(c.text) && r.cache == c
    ensures Expired(c, now, ttl) ==> r.reply == Refresh(out, orders)
    ensures r.reply.Err? ==> r.cache == c
    ensures r.ran && r.reply.Ok? ==> r.cache == Cache(r.reply.value, finished)
  {
    if Expired(c, now, ttl) then
      match Refresh(out, orders)
      case Ok(text) => Served(Ok(text), Cache(text, finished), true)
      case Err(e) => Served(Err(e), c, true)
    else Served(Ok(c.text), c, false)
  }

  /** After a refresh that finished at `finished`, every request up to `ttl`
      later is served the same text without running the command. */
  lemma FreshWindow(c: Cache, ttl: int, now: int, finished: int, out: Output, orders: seq<seq<string>>,
                    now2: int, out2: Output, orders2: seq<seq<string>>, finished2: int)
    requires |orders| == |Exposition.Metrics| && |orders2| == |Exposition.Metrics|
    requires GetData(out).Ok? ==> Exposition.ValidOrders(GetData(out).value, orders)
    requires GetData(out2).Ok? ==> Exposition.ValidOrders(GetData(out2).value, orders2)
    requires GetCache(c, ttl, now, finished, out, orders).ran
    requires GetCache(c, ttl, now, finished, out, orders).reply.Ok?
    requires now2 - finished <= ttl
    ensures var first := GetCache(c, ttl, now, finished, out, orders);
            var second := GetCache(first.cache, ttl, now2, finished2, out2, orders2);
            !second.ran && second.reply == first.reply && second.cache == first.cache
  {
  }

  /** A failed refresh leaves the cache stale, so the next request at the
      same time or later runs the command again. */
  lemma FailureRetries(c: Cache, ttl: int, now: int, finished: int, out: Output, orders: seq<seq<string>>,
                       now2: int, out2: Output, orders2: seq<seq<string>>, finished2: int)
    requires |orders| == |Exposition.Metrics| && |orders2| == |Exposition.Metrics|
    requires GetData(out).Ok? ==> Exposition.ValidOrders(GetData(out).value, orders)
    requires GetData(out2).Ok? ==> Exposition.ValidOrders(GetData(out2).value, orders2)
    requires GetCache(c, ttl, now, finished, out, orders).reply.Err?
    requires now <= now2
    ensures var first := GetCache(c, ttl, now, finished, out, orders);
            GetCache(first.cache, ttl, now2, finished2, out2, orders2).ran
  {
  }

  /** An expired cache never serves its old text: the reply is the freshly
      rendered table or an error. */
  lemma NeverStale(c: Cache, ttl: int, now: int, finished: int, out: Output, orders: seq<seq<string>>)
    requires |orders| == |Exposition.Metrics|
    requires GetData(out).Ok? ==> Exposition.ValidOrders(GetData(out).value, orders)
    requires Expired(c, now, ttl)
    ensures var r := GetCache(c, ttl, now, finished, out, orders);
            r.reply.Ok? ==> GetData(out).Ok? && r.reply.value == Exposition.DataToString(GetData(out).value, orders)
  {
  }
}

=== FILE: exposition.dfy ===
/** The exposition formatter (`DataToString`): the parsed table rendered in
    the Prometheus text exposition format as 22 counter metrics, each a
    `# HELP` line, a `# TYPE … counter` line and one sample line per
    interface. */
module Exposition {
  import opened Report
  import Scanner
  import opened Strings
  import Seqs

  /** One exported metric: its name, its help text and the record field it
      reports. */
  datatype Metric = Metric(name: string, help: string, counter: string)

  /** The metrics of the RX row, in output order. */
  const RxMetrics: seq<Metric> := [
    Metric("interface_rx_bytes_total", "RX bytes sent over the interface", "rx_bytes"),
    Metric("interface_rx_packets_total", "RX packets sent over the interface", "rx_packets"),
    Metric("interface_rx_errors_total", "RX packet errors on the interface", "rx_errors"),
    Metric("interface_rx_dropped_total", "RX packets dropped on the interface", "rx_dropped"),
    Metric("interface_rx_overrun_total", "RX packets overrun on the interface", "rx_overrun"),
    Metric("interface_rx_mcast_total", "RX mcast packets sent over the interface", "rx_mcast")
  ]

  /** The metrics of the TX row, in output order. */
  const TxMetrics: seq<Metric> := [
    Metric("interface_tx_bytes_total", "TX bytes sent over the interface", "tx_bytes"),
    Metric("interface_tx_packets_total", "TX packets sent over the interface", "tx_packets"),
    Metric("interface_tx_errors_total", "TX packet errors on the interface", "tx_errors"),
    Metric("interface_tx_dropped_total", "TX packets dropped on the interface", "tx_dropped"),
    Metric("interface_tx_carrier_total", "TX packets with lost carrier on the interface", "tx_carrier"),
    Metric("interface_tx_collsns_total", "TX packets collisions on the interface", "tx_collsns")
  ]

  /** The metrics of the RX errors row, in output order. */
  const RxErrorMetrics: seq<Metric> := [
    Metric("interface_rx_errors_length_total", "RX packets with invalid length on the interface", "rx_errors_length"),
    Metric("interface_rx_errors_crc_total", "RX packets with invalid CRC on the interface", "rx_errors_crc"),
    Metric("interface_rx_errors_frame_total", "RX packets with invalid frame alignment on the interface", "rx_errors_frame"),
    Metric("interface_rx_errors_fifo_total", "RX packets dropped because of FIFO errors on the interface", "rx_errors_fifo"),
    Metric("interface_rx_errors_missed_total", "RX packets missed on the interface", "rx_errors_missed")
  ]

  /** The metrics of the TX errors row, in output order. */
  const TxErrorMetrics: seq<Metric> := [
    Metric("interface_tx_errors_aborted_total", "TX packets aborted on the interface", "tx_errors_aborted"),
    Metric("interface_tx_errors_fifo_total", "TX packets dropped because of FIFO errors on the interface", "tx_errors_fifo"),
    Metric("interface_tx_errors_window_total", "TX packets with frame collisions on the interface", "tx_errors_window"),
    Metric("interface_tx_errors_heartbeat_total", "TX packets dropped because of heartbeat errors on the interface", "tx_errors_heartbeat"),
    Metric("interface_tx_errors_transns_total", "TX transns packets on the interface", "tx_errors_transns")
  ]

  /** The exported metrics, in output order: the four rows one after the
      other. */
  const Metrics: seq<Metric> := RxMetrics + TxMetrics + RxErrorMetrics + TxErrorMetrics

  /** The metrics of one section's row. */
  function SectionMetrics(sec: Section): seq<Metric> {
    match sec
    case Rx => RxMetrics
    case Tx => TxMetrics
    case RxErrors => RxErrorMetrics
    case TxErrors => TxErrorMetrics
  }

  /** The record field a metric reports. */
  function CounterOf(m: Metric): string {
    m.counter
  }

  /** There are 22 metric blocks. */
  lemma MetricsCount()
    ensures |Metrics| == 22
  {
  }

  /** A list of metrics reports the given counters when its `j`-th metric
      reports the `j`-th name. */
  lemma CountersOfMetrics(ms: seq<Metric>, names: seq<string>)
    requires |ms| == |names|
    requires forall j :: 0 <= j < |ms| ==> ms[j].counter == names[j]
    ensures Seqs.Map(CounterOf, ms) == names
  {
  }

  /** The metrics of a section report that section's counters, in row
      order. */
  lemma SectionMetricsMatch(sec: Section)
    ensures Seqs.Map(CounterOf, SectionMetrics(sec)) == Counters(sec)
  {
    match sec
    case Rx => RxMetricsMatch();
    case Tx => TxMetricsMatch();
    case RxErrors => RxErrorMetricsMatch();
    case TxErrors => TxErrorMetricsMatch();
  }

  lemma RxMetricsMatch()
    ensures Seqs.Map(CounterOf, RxMetrics) == Counters(Rx)
  {
    CountersOfMetrics(RxMetrics, Counters(Rx));
  }

  lemma TxMetricsMatch()
    ensures Seqs.Map(CounterOf, TxMetrics) == Counters(Tx)
  {
    CountersOfMetrics(TxMetrics, Counters(Tx));
  }

  lemma RxErrorMetricsMatch()
    ensures Seqs.Map(CounterOf, RxErrorMetrics) == Counters(RxErrors)
  {
    CountersOfMetrics(RxErrorMetrics, Counters(RxErrors));
  }

  lemma TxErrorMetricsMatch()
    ensures Seqs.Map(CounterOf, TxErrorMetrics) == Counters(TxErrors)
  {
    CountersOfMetrics(TxErrorMetrics, Counters(TxErrors));
  }

  /** The metrics list exactly the parser's counters, section by section in
      row order. */
  lemma MetricsMatchCounters()
    ensures Seqs.Map(CounterOf, Metrics)
            == Counters(Rx) + Counters(Tx) + Counters(RxErrors) + Counters(TxErrors)
  {
    SectionMetricsMatch(Rx);
    SectionMetricsMatch(Tx);
    SectionMetricsMatch(RxErrors);
    SectionMetricsMatch(TxErrors);
    Seqs.MapAppend(CounterOf, RxMetrics + TxMetrics + RxErrorMetrics, TxErrorMetrics);
    Seqs.MapAppend(CounterOf, RxMetrics + TxMetrics, RxErrorMetrics);
    Seqs.MapAppend(CounterOf, RxMetrics, TxMetrics);
  }

  function HelpLine(m: Metric): string {
    "# HELP " + m.name + " " + m.help
  }

  function TypeLine(m: Metric): string {
    "# TYPE " + m.name + " counter"
  }

  /** A field of an interface's record; an absent one reads as the empty
      string, as indexing a missing Go map entry does. */
  function Field(t: Table, key: string, f: string): (r: string)
    ensures key in t && f in t[key] ==> r == t[key][f]
    ensures r != "" ==> key in t && f in t[key]
    ensures WellFormed(t) ==> Solid(r)
  {
    if key in t && f in t[key] then t[key][f] else ""
  }

  /** The sample line of metric `m` for interface `key`: the metric name,
      the labels `{interface="key",up="up"}`, a space and the counter's
      value. Past the metric name, the line of an interface of a well-formed
      table holds no newline, so the sample adds exactly one line to the
      output. */
  function Sample(m: Metric, t: Table, key: string): (r: string)
    ensures var v := Field(t, key, m.counter);
            && |m.name| + |v| < |r|
            && r[..|m.name|] == m.name
            && r[|m.name|..|r| - |v| - 1] == "{interface=\"" + key + "\",up=\"" + Field(t, key, Up) + "\"}"
            && r[|r| - |v|..] == v && r[|r| - |v| - 1] == ' '
    ensures WellFormed(t) && key in t ==> '\n' !in r[|m.name|..]
  {
    var up := Field(t, key, Up);
    var v := Field(t, key, m.counter);
    var labels := "{interface=\"" + key + "\",up=\"" + up + "\"}";
    NoNewlineInWord(v);
    LabelsLine(key, up);
    SampleParts(m.name + labels + " " + v, m.name, labels, v);
    m.name + labels + " " + v
  }

  /** The labels of an interface whose name and `up` field are newline-free
      hold no newline. */
  lemma LabelsLine(key: string, up: string)
    ensures '\n' !in key && Solid(up) ==> '\n' !in "{interface=\"" + key + "\",up=\"" + up + "\"}"
  {
    NoNewlineInWord(up);
  }

  /** The parts of a line `a + l + " " + g`. */
  lemma SampleParts(r: string, a: string, l: string, g: string)
    requires r == a + l + " " + g
    ensures |a| + |g| < |r| && r[..|a|] == a && r[|a|..|r| - |g| - 1] == l
    ensures r[|r| - |g|..] == g && r[|r| - |g| - 1] == ' '
    ensures '\n' !in l && '\n' !in g ==> '\n' !in r[|a|..]
  {
    assert r[|a|..] == l + " " + g;
  }

  /** A word without white space holds no newline. */
  lemma NoNewlineInWord(w: string)
    ensures Solid(w) ==> '\n' !in w
  {
    if '\n' in w {
      var i :| 0 <= i < |w| && w[i] == '\n';
      assert IsSpace(w[i]);
    }
  }

  /** One sample line per key, in the order of `keys`. */
  function Samples(m: Metric, t: Table, keys: seq<string>): seq<string> {
    Seqs.Map((key: string) => Sample(m, t, key), keys)
  }

  /** A metric block: help, type and the samples in the order `keys`. */
  function Block(m: Metric, t: Table, keys: seq<string>): seq<string> {
    [HelpLine(m), TypeLine(m)] + Samples(m, t, keys)
  }

  /** The metric blocks in output order, block `b` listing the interfaces in
      order `orders[b]`. Go visits a map in an unspecified order that may
      differ on every loop, so each block has its own interface order. */
  function Blocks(t: Table, orders: seq<seq<string>>): seq<seq<string>>
    requires |orders| == |Metrics|
  {
    seq(|Metrics|, b requires 0 <= b < |Metrics| => Block(Metrics[b], t, orders[b]))
  }

  /** The output lines: the blocks one after the other. */
  function Lines(t: Table, orders: seq<seq<string>>): (r: seq<string>)
    requires |orders| == |Metrics|
    ensures |r| >= 2 && r[0] == HelpLine(Metrics[0]) && r[1] == TypeLine(Metrics[0])
  {
    var xs := Blocks(t, orders);
    assert Seqs.Flatten(xs) == xs[0] + Seqs.Flatten(xs[1..]);
    assert xs[0][0] == HelpLine(Metrics[0]) && xs[0][1] == TypeLine(Metrics[0]);
    Seqs.Flatten(xs)
  }

  /** `DataToString`: every line followed by a newline. Even for an empty
      table the text opens with the help line of the first metric, and it
      always ends with a newline. */
  function DataToString(t: Table, orders: seq<seq<string>>): (r: string)
    requires |orders| == |Metrics|
    ensures HasPrefix(r, HelpLine(Metrics[0]) + "\n")
    ensures |r| > 0 && r[|r| - 1] == '\n'
  {
    Scanner.Render(Lines(t, orders))
  }

  // ---------------------------------------------------------------------
  // Interface orders
  // ---------------------------------------------------------------------

  /** `keys` lists every interface of `t` exactly once: one iteration of a
      Go `range` loop over the table. */
  predicate Enumerates(keys: seq<string>, t: Table) {
    && (forall a, b :: 0 <= a < b < |keys| ==> keys[a] != keys[b])
    && (forall key :: key in keys ==> key in t)
    && (forall key :: key in t ==> key in keys)
  }

  /** Every block visits every interface once. */
  predicate ValidOrders(t: Table, orders: seq<seq<string>>) {
    |orders| == |Metrics| && forall b :: 0 <= b < |orders| ==> Enumerates(orders[b], t)
  }

  /** Dropping the first key of an enumeration enumerates the table without
      that key. */
  lemma EnumerationTail(keys: seq<string>, t: Table) returns (t': Table)
    requires Enumerates(keys, t) && |keys| > 0
    ensures Enumerates(keys[1..], t')
    ensures t'.Keys == t.Keys - {keys[0]}
  {
    t' := map key | key in t && key != keys[0] :: t[key];
    var rest := keys[1..];
    forall key | key in rest ensures key in t' {
      var a :| 1 <= a < |keys| && keys[a] == key;
      assert keys[0] != keys[a];
    }
    forall key | key in t' ensures key in rest {
      var a :| 0 <= a < |keys| && keys[a] == key;
      assert rest[a - 1] == key;
    }
  }

  /** An enumeration is as long as the table has interfaces. */
  lemma {:induction false} EnumerationLength(keys: seq<string>, t: Table)
    requires Enumerates(keys, t)
    ensures |keys| == |t|
    decreases |keys|
  {
    if |keys| == 0 {
      assert t.Keys == {};
    } else {
      var t' := EnumerationTail(keys, t);
      EnumerationLength(keys[1..], t');
      assert |t'.Keys| == |t.Keys| - 1;
    }
  }

  /** Each element of an enumeration occurs in it exactly once. */
  lemma {:induction false} EnumerationMultiplicity(keys: seq<string>, t: Table, key: string)
    requires Enumerates(keys, t)
    ensures multiset(keys)[key] == if key in t then 1 else 0
    decreases |keys|
  {
    if |keys| > 0 {
      var rest := keys[1..];
      var t' := EnumerationTail(keys, t);
      EnumerationMultiplicity(rest, t', key);
      assert keys == [keys[0]] + rest;
      assert multiset(keys) == multiset{keys[0]} + multiset(rest);
    }
  }

  /** Two enumerations of the same table differ only in order. */
  lemma EnumerationsPermute(a: seq<string>, b: seq<string>, t: Table)
    requires Enumerates(a, t) && Enumerates(b, t)
    ensures multiset(a) == multiset(b)
  {
    forall key ensures multiset(a)[key] == multiset(b)[key] {
      EnumerationMultiplicity(a, t, key);
      EnumerationMultiplicity(b, t, key);
    }
  }

  // ---------------------------------------------------------------------
  // Shape of the output
  // ---------------------------------------------------------------------

  /** Every block of valid orders has one line per interface. */
  lemma OrdersLength(t: Table, orders: seq<seq<string>>)
    requires ValidOrders(t, orders)
    ensures forall b :: 0 <= b < |orders| ==> |orders[b]| == |t|
  {
    forall b | 0 <= b < |orders| ensures |orders[b]| == |t| {
      EnumerationLength(orders[b], t);
    }
  }

  /** Index of the first line of block `b` when every block has `2 + N`
      lines for `N` interfaces. */
  function BlockStart(t: Table, b: nat): nat {
    b * (2 + |t|)
  }

  /** With one interface order per block, each of the table's size, every
      block has `2 + N` lines. */
  lemma BlocksWidth(t: Table, orders: seq<seq<string>>)
    requires |orders| == |Metrics|
    requires forall c :: 0 <= c < |orders| ==> |orders[c]| == |t|
    ensures forall c :: 0 <= c < |Blocks(t, orders)| ==> |Blocks(t, orders)[c]| == 2 + |t|
  {
  }

  /** The output has 22 blocks of `2 + N` lines for `N` interfaces, whatever
      the records hold. */
  lemma LinesLength(t: Table, orders: seq<seq<string>>)
    requires |orders| == |Metrics|
    requires forall c :: 0 <= c < |orders| ==> |orders[c]| == |t|
    ensures |Lines(t, orders)| == 22 * (2 + |t|)
  {
    MetricsCount();
    BlocksWidth(t, orders);
    Seqs.FlattenLength(Blocks(t, orders), 2 + |t|);
  }

  /** Lines `BlockStart(t, b)` up to `BlockStart(t, b) + 2 + N` of the output
      are block `b`. */
  lemma BlockAt(t: Table, orders: seq<seq<string>>, b: nat)
    requires |orders| == |Metrics|
    requires forall c :: 0 <= c < |orders| ==> |orders[c]| == |t|
    requires b < |Metrics|
    ensures BlockStart(t, b) + 2 + |t| <= |Lines(t, orders)|
    ensures Lines(t, orders)[BlockStart(t, b) .. BlockStart(t, b) + 2 + |t|] == Block(Metrics[b], t, orders[b])
  {
    BlocksWidth(t, orders);
    Seqs.FlattenChunk(Blocks(t, orders), 2 + |t|, b);
  }

  /** The output is the 22 metric blocks one after the other, each `2 + N`
      lines long. */
  lemma Layout(t: Table, orders: seq<seq<string>>)
    requires |orders| == |Metrics|
    requires forall c :: 0 <= c < |orders| ==> |orders[c]| == |t|
    ensures |Lines(t, orders)| == |Metrics| * (2 + |t|)
    ensures forall b: nat :: b < |Metrics| ==>
              && BlockStart(t, b) + 2 + |t| <= |Lines(t, orders)|
              && Lines(t, orders)[BlockStart(t, b) .. BlockStart(t, b) + 2 + |t|] == Block(Metrics[b], t, orders[b])
  {
    LinesLength(t, orders);
    MetricsCount();
    forall b: nat | b < |Metrics|
      ensures && BlockStart(t, b) + 2 + |t| <= |Lines(t, orders)|
              && Lines(t, orders)[BlockStart(t, b) .. BlockStart(t, b) + 2 + |t|] == Block(Metrics[b], t, orders[b])
    {
      BlockAt(t, orders, b);
    }
  }

  /** Block `b` opens with the help and type lines of metric `b`. */
  lemma HeadsAt(t: Table, orders: seq<seq<string>>, b: nat)
    requires |orders| == |Metrics|
    requires forall c :: 0 <= c < |orders| ==> |orders[c]| == |t|
    requires b < |Metrics|
    ensures BlockStart(t, b) + 1 < |Lines(t, orders)|
    ensures Lines(t, orders)[BlockStart(t, b)] == HelpLine(Metrics[b])
    ensures Lines(t, orders)[BlockStart(t, b) + 1] == TypeLine(Metrics[b])
  {
    BlockAt(t, orders, b);
    Seqs.SliceAt(Lines(t, orders), BlockStart(t, b), 2 + |t|, Block(Metrics[b], t, orders[b]), 0);
    Seqs.SliceAt(Lines(t, orders), BlockStart(t, b), 2 + |t|, Block(Metrics[b], t, orders[b]), 1);
  }

  /** Line `2 + j` of block `b` is the sample of metric `b` for the `j`-th
      interface of that block's order. */
  lemma SampleAt(t: Table, orders: seq<seq<string>>, b: nat, j: nat)
    requires |orders| == |Metrics|
    requires forall c :: 0 <= c < |orders| ==> |orders[c]| == |t|
    requires b < |Metrics| && j < |orders[b]|
    ensures BlockStart(t, b) + 2 + j < |Lines(t, orders)|
    ensures Lines(t, orders)[BlockStart(t, b) + 2 + j] == Sample(Metrics[b], t, orders[b][j])
  {
    BlockAt(t, orders, b);
    Seqs.SliceAt(Lines(t, orders), BlockStart(t, b), 2 + |t|, Block(Metrics[b], t, orders[b]), 2 + j);
    BlockSample(Metrics[b], t, orders[b], j);
  }

  /** Line `2 + j` of a block is the sample for its `j`-th key. */
  lemma BlockSample(m: Metric, t: Table, keys: seq<string>, j: nat)
    requires j < |keys|
    ensures 2 + j < |Block(m, t, keys)|
    ensures Block(m, t, keys)[2 + j] == Sample(m, t, keys[j])
  {
    assert Block(m, t, keys)[2 + j] == Samples(m, t, keys)[j];
  }

  /** Every interface has a sample line for every metric, a counter missing
      from its record included. */
  lemma EverySample(t: Table, orders: seq<seq<string>>, b: nat, key: string)
    requires ValidOrders(t, orders)
    requires b < |Metrics| && key in t
    ensures Sample(Metrics[b], t, key) in Lines(t, orders)
  {
    OrdersLength(t, orders);
    var j :| 0 <= j < |orders[b]| && orders[b][j] == key;
    SampleAt(t, orders, b, j);
  }

  /** Every interface has a sample line for every metric, for all metrics
      and interfaces at once. */
  lemma AllSamples(t: Table, orders: seq<seq<string>>)
    requires ValidOrders(t, orders)
    ensures forall b, key :: 0 <= b < |Metrics| && key in t ==> Sample(Metrics[b], t, key) in Lines(t, orders)
  {
    forall b, key | 0 <= b < |Metrics| && key in t
      ensures Sample(Metrics[b], t, key) in Lines(t, orders)
    {
      EverySample(t, orders, b, key);
    }
  }

  /** Conversely, every output line is a heading of some metric or a sample
      of some metric for an interface of the table. */
  lemma OnlySamplesOfTable(t: Table, orders: seq<seq<string>>, line: string)
    requires ValidOrders(t, orders)
    requires line in Lines(t, orders)
    ensures exists b: nat :: b < |Metrics| &&
              (|| line == HelpLine(Metrics[b])
               || line == TypeLine(Metrics[b])
               || exists key :: key in t && line == Sample(Metrics[b], t, key))
  {
    var xs := Blocks(t, orders);
    var b := Seqs.FlattenMember(xs, line);
    var m := Metrics[b];
    if line != HelpLine(m) && line != TypeLine(m) {
      assert line in Samples(m, t, orders[b]);
      var j :| 0 <= j < |orders[b]| && Samples(m, t, orders[b])[j] == line;
      assert orders[b][j] in t;
    }
  }

  // ---------------------------------------------------------------------
  // Independence from the iteration order
  // ---------------------------------------------------------------------

  /** The output is the same up to the order of sample lines, whatever order
      each loop visits the interfaces in. */
  lemma OrderIrrelevant(t: Table, o1: seq<seq<string>>, o2: seq<seq<string>>)
    requires ValidOrders(t, o1) && ValidOrders(t, o2)
    ensures multiset(Lines(t, o1)) == multiset(Lines(t, o2))
  {
    var xs := Blocks(t, o1);
    var ys := Blocks(t, o2);
    forall b | 0 <= b < |Metrics| ensures multiset(xs[b]) == multiset(ys[b]) {
      EnumerationsPermute(o1[b], o2[b], t);
      var m := Metrics[b];
      Seqs.MapPermute((key: string) => Sample(m, t, key), o1[b], o2[b]);
    }
    Seqs.FlattenPermute(xs, ys);
  }
}

=== FILE: header.dfy ===
/** The interface header pattern `^[0-9]+: (.*?): .*?state (.*?) .*$`, matched
    by hand. A header line of `ip -s -s link show` looks like
    `3: eth0@if2: <BROADCAST,MULTICAST,UP> mtu 1500 qdisc noqueue state UP mode DEFAULT`;
    the two capture groups are the interface name and its operational state. */
module HeaderRegex {
  import opened Results
  import opened Strings

  /** The two capture groups of a successful match. */
  datatype Header = Header(name: string, state: string)

  /** Length of the run of decimal digits that starts the string. */
  function DigitRun(s: string): (n: nat)
    ensures n <= |s|
    ensures forall x :: 0 <= x < n ==> IsDigit(s[x])
    ensures n < |s| ==> !IsDigit(s[n])
  {
    if |s| == 0 || !IsDigit(s[0]) then 0 else 1 + DigitRun(s[1..])
  }

  /** One way for `line` to match the whole pattern: the index digits are
      `line[..d]`, `": "` follows at `d`, the first group is `line[d + 2..i]`,
      `": "` follows at `i`, `"state "` appears at `k`, the second group is
      `line[k + 6..j]` and a space follows at `j`. Every part of the pattern
      (`.` included) excludes the newline, and `^`/`$` anchor the whole line. */
  ghost predicate Matching(line: string, d: nat, i: nat, k: nat, j: nat) {
    && '\n' !in line
    && 0 < d
    && OccursAt(line, ": ", d)
    && (forall x :: 0 <= x < d ==> IsDigit(line[x]))
    && d + 2 <= i && OccursAt(line, ": ", i)
    && i + 2 <= k && OccursAt(line, "state ", k)
    && k + 6 <= j < |line| && line[j] == ' '
  }

  /** The match a backtracking (leftmost-first) engine reports: the greedy
      digit run comes first, then the shortest first group, then the shortest
      stretch before `"state "`, then the shortest second group. */
  ghost predicate LeftmostFirst(line: string, d: nat, i: nat, k: nat, j: nat) {
    && Matching(line, d, i, k, j)
    && forall d': nat, i': nat, k': nat, j': nat :: Matching(line, d', i', k', j') ==>
         d == d' && (i < i' || (i == i' && (k < k' || (k == k' && j <= j'))))
  }

  /** Where the parts of a match end: the index digits are `line[..d]`, the
      first group is `line[d + 2..i]` and the second `line[k + 6..j]`. */
  datatype Bounds = Bounds(d: nat, i: nat, k: nat, j: nat)

  /** The boundaries a backtracking engine settles on, or `None` when the
      line does not match. Each lazy group ends at the first place the rest
      of the pattern can continue. */
  function FindBounds(line: string): (r: Option<Bounds>)
    ensures r.Some? ==> '\n' !in line
    ensures r.Some? ==> r.value.d + 2 <= r.value.i <= r.value.k && r.value.k + 6 <= r.value.j <= |line|
    ensures r.Some? ==> 0 < r.value.d == DigitRun(line) && OccursAt(line, ": ", r.value.d)
    ensures r.Some? ==> FindFrom(line, ": ", r.value.d + 2) == Some(r.value.i)
    ensures r.Some? ==> BoundsAfterName(line, r.value.d, r.value.i) == r
  {
    var d := DigitRun(line);
    if '\n' in line || d == 0 || !OccursAt(line, ": ", d) then None
    else match FindFrom(line, ": ", d + 2)
      case None => None
      case Some(i) => BoundsAfterName(line, d, i)
  }

  /** The rest of the boundaries once the first group is known to end at
      `i`: the first `"state "` after it, then the first space after that. */
  function BoundsAfterName(line: string, d: nat, i: nat): (r: Option<Bounds>)
    ensures r.Some? ==> r.value.d == d && r.value.i == i && i + 2 <= r.value.k && r.value.k + 6 <= r.value.j <= |line|
    ensures r.Some? ==> FindFrom(line, "state ", i + 2) == Some(r.value.k)
    ensures r.Some? ==> FindFrom(line, " ", r.value.k + 6) == Some(r.value.j)
  {
    match FindFrom(line, "state ", i + 2)
    case None => None
    case Some(k) =>
      match FindFrom(line, " ", k + 6)
      case None => None
      case Some(j) => Some(Bounds(d, i, k, j))
  }

  /** The capture groups of the header pattern, or `None` when the line does
      not match. */
  function MatchHeader(line: string): (r: Option<Header>)
    ensures r.Some? ==> '\n' !in r.value.name && '\n' !in r.value.state
  {
    match FindBounds(line)
    case None => None
    case Some(b) => Some(Header(line[b.d + 2..b.i], line[b.k + 6..b.j]))
  }

  /** The digit run of any match is the maximal one. */
  lemma DigitsDetermined(line: string, d: nat, i: nat, k: nat, j: nat)
    requires Matching(line, d, i, k, j)
    ensures d == DigitRun(line)
  {
    var n := DigitRun(line);
    assert line[d] == line[d..d + 2][0] == ':';
  }

  /** The boundaries the matcher settles on start with the digit run and
      the first `": "` after it. */
  lemma BoundsFound(line: string, d: nat, i: nat, k: nat, j: nat)
    requires FindBounds(line) == Some(Bounds(d, i, k, j))
    ensures '\n' !in line && 0 < d && OccursAt(line, ": ", d)
    ensures d == DigitRun(line)
    ensures FindFrom(line, ": ", d + 2) == Some(i)
    ensures BoundsAfterName(line, d, i) == Some(Bounds(d, i, k, j))
  {
  }

  /** After the first group, the boundaries are the first `"state "` and the
      first space after it. */
  lemma AfterNameBounds(line: string, d: nat, i: nat, k: nat, j: nat)
    requires BoundsAfterName(line, d, i) == Some(Bounds(d, i, k, j))
    ensures FindFrom(line, "state ", i + 2) == Some(k)
    ensures FindFrom(line, " ", k + 6) == Some(j)
  {
  }

  /** The positions the matcher settles on form a match of the pattern. */
  lemma FoundIsMatching(line: string, d: nat, i: nat, k: nat, j: nat)
    requires '\n' !in line && 0 < d && OccursAt(line, ": ", d)
    requires d == DigitRun(line)
    requires FindFrom(line, ": ", d + 2) == Some(i)
    requires FindFrom(line, "state ", i + 2) == Some(k)
    requires FindFrom(line, " ", k + 6) == Some(j)
    ensures Matching(line, d, i, k, j)
  {
    assert line[j] == line[j..j + 1][0] == ' ';
  }

  /** Every match ends each part no earlier than the matcher does. */
  lemma MatcherFirst(line: string, d: nat, i: nat, k: nat, j: nat, d': nat, i': nat, k': nat, j': nat)
    requires d == DigitRun(line)
    requires FindFrom(line, ": ", d + 2) == Some(i)
    requires FindFrom(line, "state ", i + 2) == Some(k)
    requires FindFrom(line, " ", k + 6) == Some(j)
    requires Matching(line, d', i', k', j')
    ensures d == d' && i <= i' && k <= k' && j <= j'
  {
    DigitsDetermined(line, d', i', k', j');
    FindFromBefore(line, ": ", d + 2, i, i');
    FindFromBefore(line, "state ", i + 2, k, k');
    CharOccurs(line, j');
    FindFromBefore(line, " ", k + 6, j, j');
  }

  /** When the matcher succeeds, its groups come from a match whose
      boundaries are at or before those of every other match. */
  lemma MatchedAt(line: string) returns (d: nat, i: nat, k: nat, j: nat)
    requires MatchHeader(line).Some?
    ensures Matching(line, d, i, k, j)
    ensures MatchHeader(line).value == Header(line[d + 2..i], line[k + 6..j])
    ensures forall d': nat, i': nat, k': nat, j': nat :: Matching(line, d', i', k', j') ==>
              d == d' && i <= i' && k <= k' && j <= j'
  {
    var b := FindBounds(line).value;
    d, i, k, j := b.d, b.i, b.k, b.j;
    BoundsFound(line, d, i, k, j);
    AfterNameBounds(line, d, i, k, j);
    FoundIsMatching(line, d, i, k, j);
    forall d': nat, i': nat, k': nat, j': nat | Matching(line, d', i', k', j')
      ensures d == d' && i <= i' && k <= k' && j <= j'
    {
      MatcherFirst(line, d, i, k, j, d', i', k', j');
    }
  }

  /** Once `"state "` is found after the first group and a space after it,
      the rest of the boundaries are found. */
  lemma AfterNameFound(line: string, d: nat, i: nat, k: nat)
    requires FindFrom(line, "state ", i + 2) == Some(k)
    requires FindFrom(line, " ", k + 6).Some?
    ensures BoundsAfterName(line, d, i).Some?
  {
  }

  /** Once the digit run and the end of the first group are found, the
      boundaries are those found after the first group. */
  lemma BoundsFromName(line: string, d: nat, i: nat)
    requires '\n' !in line && 0 < d && d == DigitRun(line) && OccursAt(line, ": ", d)
    requires FindFrom(line, ": ", d + 2) == Some(i)
    ensures FindBounds(line) == BoundsAfterName(line, d, i)
  {
  }

  /** Where the pattern's separators occur, the matcher's searches for them
      succeed, each at the occurrence given or earlier. */
  lemma SearchesSucceed(line: string, d: nat, i: nat, k: nat, j: nat) returns (fi: nat, fk: nat)
    requires d + 2 <= i && OccursAt(line, ": ", i)
    requires i + 2 <= k && OccursAt(line, "state ", k)
    requires k + 6 <= j && OccursAt(line, " ", j)
    ensures FindFrom(line, ": ", d + 2) == Some(fi)
    ensures FindFrom(line, "state ", fi + 2) == Some(fk)
    ensures FindFrom(line, " ", fk + 6).Some?
  {
    FindFromFirst(line, ": ", d + 2, i);
    fi := FindFrom(line, ": ", d + 2).value;
    FindFromFirst(line, "state ", fi + 2, k);
    fk := FindFrom(line, "state ", fi + 2).value;
    FindFromFirst(line, " ", fk + 6, j);
  }

  /** Any match at all makes the matcher succeed. */
  lemma MatchFound(line: string, d: nat, i: nat, k: nat, j: nat)
    requires Matching(line, d, i, k, j)
    ensures MatchHeader(line).Some?
  {
    DigitsDetermined(line, d, i, k, j);
    CharOccurs(line, j);
    var fi, fk := SearchesSucceed(line, d, i, k, j);
    AfterNameFound(line, d, fi, fk);
    BoundsFromName(line, d, fi);
  }

  /** The matcher agrees with the pattern: it succeeds exactly on the lines
      the pattern matches, and then returns the groups of the leftmost-first
      match. */
  lemma MatchHeaderIsLeftmostFirst(line: string)
    ensures MatchHeader(line).Some? <==> exists d: nat, i: nat, k: nat, j: nat :: Matching(line, d, i, k, j)
    ensures MatchHeader(line).Some? ==>
              exists d: nat, i: nat, k: nat, j: nat :: LeftmostFirst(line, d, i, k, j) &&
                MatchHeader(line).value == Header(line[d + 2..i], line[k + 6..j])
  {
    if MatchHeader(line).Some? {
      var d, i, k, j := MatchedAt(line);
      assert LeftmostFirst(line, d, i, k, j);
    } else if exists d: nat, i: nat, k: nat, j: nat :: Matching(line, d, i, k, j) {
      var d: nat, i: nat, k: nat, j: nat :| Matching(line, d, i, k, j);
      MatchFound(line, d, i, k, j);
    }
  }
}

=== FILE: report.dfy ===
/** The parser of the `ip -s -s link show` report (`GetData`): a line-by-line
    state machine that keeps the current interface name and four one-shot
    "next line is a data row" flags, and builds a table from interface name to
    its fields (`"up"` and the raw counter strings). */
module Report {
  import opened Results
  import opened Strings
  import opened HeaderRegex

  /** The fields of one interface: `"up"` and the counters seen so far. */
  type Record = map<string, string>

  /** Interface name to its record. */
  type Table = map<string, Record>

  /** The four statistics sections of the report, each announced by a title
      line and followed by one row of counters. */
  datatype Section = Rx | Tx | RxErrors | TxErrors {
    /** Order of precedence among pending rows. */
    function Rank(): nat {
      match this
      case Rx => 0
      case Tx => 1
      case RxErrors => 2
      case TxErrors => 3
    }
  }

  /** The counters of a section, in the order the row lists them. */
  function Counters(sec: Section): seq<string> {
    match sec
    case Rx => ["rx_bytes", "rx_packets", "rx_errors", "rx_dropped", "rx_overrun", "rx_mcast"]
    case Tx => ["tx_bytes", "tx_packets", "tx_errors", "tx_dropped", "tx_carrier", "tx_collsns"]
    case RxErrors => ["rx_errors_length", "rx_errors_crc", "rx_errors_frame", "rx_errors_fifo", "rx_errors_missed"]
    case TxErrors => ["tx_errors_aborted", "tx_errors_fifo", "tx_errors_window", "tx_errors_heartbeat", "tx_errors_transns"]
  }

  /** The prefix of the title line that announces a section. */
  function Title(sec: Section): string {
    match sec
    case Rx => "    RX: "
    case Tx => "    TX: "
    case RxErrors => "    RX errors: "
    case TxErrors => "    TX errors: "
  }

  /** The record field holding the link state. */
  const Up: string := "up"

  /** Why a report could not be parsed (each is a panic in the exporter). */
  datatype ParseError =
    | HeaderMismatch(line: string)            // the header pattern did not match
    | ShortRow(line: string, section: Section)  // a data row had too few fields
    | NoInterface(line: string)               // a data row came before any header

  /** The parser's state between two lines. */
  datatype State = State(
    table: Table,
    current: string,
    rx: bool,
    tx: bool,
    rxErrors: bool,
    txErrors: bool)

  /** Before the first line: no interfaces, no current name, no pending row. */
  const Start: State := State(map[], "", false, false, false, false)

  /** Whether the section's "next line is data" flag is set. */
  function Flag(s: State, sec: Section): bool {
    match sec
    case Rx => s.rx
    case Tx => s.tx
    case RxErrors => s.rxErrors
    case TxErrors => s.txErrors
  }

  /** `s` with one section's flag set to `b`. */
  function SetFlag(s: State, sec: Section, b: bool): (r: State)
    ensures r.table == s.table && r.current == s.current
    ensures Flag(r, sec) == b
    ensures forall other :: other != sec ==> Flag(r, other) == Flag(s, other)
  {
    match sec
    case Rx => s.(rx := b)
    case Tx => s.(tx := b)
    case RxErrors => s.(rxErrors := b)
    case TxErrors => s.(txErrors := b)
  }

  /** The section whose row the next indented line is, if any: the flags are
      tested in the order RX, TX, RX errors, TX errors. */
  function Pending(s: State): (r: Option<Section>)
    ensures r.None? <==> !s.rx && !s.tx && !s.rxErrors && !s.txErrors
    ensures r.Some? ==> Flag(s, r.value)
    ensures r == Some(Tx) ==> !s.rx
    ensures r == Some(RxErrors) ==> !s.rx && !s.tx
    ensures r == Some(TxErrors) ==> !s.rx && !s.tx && !s.rxErrors
  {
    if s.rx then Some(Rx)
    else if s.tx then Some(Tx)
    else if s.rxErrors then Some(RxErrors)
    else if s.txErrors then Some(TxErrors)
    else None
  }

  /** A line that does not start with a space names an interface. */
  predicate IsHeaderLine(line: string): (r: bool)
    ensures r <==> |line| > 0 && !HasPrefix(line, " ")
  {
    assert |line| > 0 ==> line[..1] == [line[0]];
    |line| > 0 && line[0] != ' '
  }

  /** The table key for a header: the captured name cut at the first '@'. */
  function Interface(h: Header): (r: string)
    ensures r <= h.name && '@' !in r
    ensures |r| < |h.name| ==> h.name[|r|] == '@'
  {
    Before(h.name, '@')
  }

  /** The `"up"` field: "0" exactly when the captured state is "DOWN". */
  function UpValue(state: string): (r: string)
    ensures r == "0" <==> state == "DOWN"
    ensures r == "0" || r == "1"
  {
    if state == "DOWN" then "0" else "1"
  }

  /** No line starts with two different titles. */
  lemma TitlesExclusive(line: string, a: Section, b: Section)
    requires HasPrefix(line, Title(a)) && HasPrefix(line, Title(b))
    ensures a == b
  {
    assert line[4] == line[..|Title(a)|][4] == Title(a)[4];
    assert line[4] == line[..|Title(b)|][4] == Title(b)[4];
    assert line[6] == line[..|Title(a)|][6] == Title(a)[6];
    assert line[6] == line[..|Title(b)|][6] == Title(b)[6];
  }

  lemma TitlesExclusiveAll(line: string)
    ensures forall a, b :: HasPrefix(line, Title(a)) && HasPrefix(line, Title(b)) ==> a == b
  {
    forall a, b | HasPrefix(line, Title(a)) && HasPrefix(line, Title(b)) ensures a == b {
      TitlesExclusive(line, a, b);
    }
  }

  /** The section a title line announces, tested in the order RX, TX,
      RX errors, TX errors. */
  function TitleOf(line: string): (r: Option<Section>)
    ensures forall sec :: r == Some(sec) <==> HasPrefix(line, Title(sec))
  {
    TitlesExclusiveAll(line);
    if HasPrefix(line, Title(Rx)) then Some(Rx)
    else if HasPrefix(line, Title(Tx)) then Some(Tx)
    else if HasPrefix(line, Title(RxErrors)) then Some(RxErrors)
    else if HasPrefix(line, Title(TxErrors)) then Some(TxErrors)
    else None
  }

  predicate Distinct(names: seq<string>) {
    forall a, b :: 0 <= a < b < |names| ==> names[a] != names[b]
  }

  lemma CountersDistinct(sec: Section)
    ensures Distinct(Counters(sec))
  {
  }

  /** `rec` with `names[t]` set to `vals[t]` for each `t`, in order. */
  function Assign(rec: Record, names: seq<string>, vals: seq<string>): (r: Record)
    requires |names| <= |vals|
    ensures r.Keys == rec.Keys + set n | n in names
    ensures forall key :: key in rec && key !in names ==> r[key] == rec[key]
    ensures Distinct(names) ==> forall t :: 0 <= t < |names| ==> r[names[t]] == vals[t]
    decreases |names|
  {
    if |names| == 0 then rec
    else Assign(rec[names[0] := vals[0]], names[1..], vals[1..])
  }

  /** The table with the `names` fields of interface `cur` set from `vals`. */
  function Fill(t: Table, cur: string, names: seq<string>, vals: seq<string>): (r: Table)
    requires cur in t && |names| <= |vals| && Distinct(names)
    ensures r.Keys == t.Keys
    ensures r[cur].Keys == t[cur].Keys + set n | n in names
    ensures forall n :: 0 <= n < |names| ==> r[cur][names[n]] == vals[n]
    ensures forall key :: key in t[cur] && key !in names ==> r[cur][key] == t[cur][key]
    ensures forall other :: other in t && other != cur ==> r[other] == t[other]
  {
    t[cur := Assign(t[cur], names, vals)]
  }

  /** Consumes the data row of section `sec`. The fields are read in order,
      so an empty row fails on its first field before the missing interface
      record is noticed. */
  function Consume(s: State, sec: Section, line: string): (r: Result<State, ParseError>)
    ensures r.Ok? <==> s.current in s.table && |Fields(line)| >= |Counters(sec)|
    ensures r == Err(NoInterface(line)) <==> s.current !in s.table && |Fields(line)| > 0
    ensures r.Err? && r != Err(NoInterface(line)) ==>
              r == Err(ShortRow(line, sec)) && |Fields(line)| < |Counters(sec)|
    ensures r.Ok? ==> r.value.current == s.current && r.value.table.Keys == s.table.Keys
    ensures r.Ok? ==> !Flag(r.value, sec) && forall other :: other != sec ==> Flag(r.value, other) == Flag(s, other)
    ensures r.Ok? ==> forall other :: other in s.table && other != s.current ==> r.value.table[other] == s.table[other]
    ensures r.Ok? ==> r.value.table[s.current].Keys == s.table[s.current].Keys + set n | n in Counters(sec)
    ensures r.Ok? ==> forall n :: 0 <= n < |Counters(sec)| ==> r.value.table[s.current][Counters(sec)[n]] == Fields(line)[n]
    ensures r.Ok? ==> forall key :: key in s.table[s.current] && key !in Counters(sec) ==>
                        r.value.table[s.current][key] == s.table[s.current][key]
  {
    var vals := Fields(line);
    var names := Counters(sec);
    if |vals| == 0 then Err(ShortRow(line, sec))
    else if s.current !in s.table then Err(NoInterface(line))
    else if |vals| < |names| then Err(ShortRow(line, sec))
    else
      CountersDistinct(sec);
      Ok(SetFlag(s, sec, false).(table := Fill(s.table, s.current, names, vals)))
  }

  /** One iteration of the parser loop. It fails only on a header line the
      pattern does not match or on a consumed data row, naming that line;
      it never removes an interface, and only a header line changes the
      current one. */
  function Step(s: State, line: string): (r: Result<State, ParseError>)
    ensures IsHeaderLine(line) ==> (r.Ok? <==> MatchHeader(line).Some?)
    ensures r.Err? ==> r.error.line == line && Offending(r.error)
    ensures r.Ok? ==> s.table.Keys <= r.value.table.Keys
    ensures r.Ok? && !IsHeaderLine(line) ==> r.value.current == s.current
  {
    if |line| == 0 then Ok(s)
    else if IsHeaderLine(line) then
      match MatchHeader(line)
      case None => Err(HeaderMismatch(line))
      case Some(h) =>
        var key := Interface(h);
        Ok(s.(table := s.table[key := map[Up := UpValue(h.state)]], current := key))
    else match Pending(s)
      case Some(sec) => Consume(s, sec, line)
      case None =>
        match TitleOf(line)
        case Some(sec) => Ok(SetFlag(s, sec, true))
        case None => Ok(s)
  }

  /** The parser loop from state `s` over `lines`; the first error stops it.
      A failure names a line of the report that is at fault; a success
      means every header line matched and no interface was removed. */
  function Run(s: State, lines: seq<string>): (r: Result<State, ParseError>)
    ensures r.Err? ==> r.error.line in lines && Offending(r.error)
    ensures r.Ok? ==> forall n :: 0 <= n < |lines| && IsHeaderLine(lines[n]) ==> MatchHeader(lines[n]).Some?
    ensures r.Ok? ==> s.table.Keys <= r.value.table.Keys
    decreases |lines|
  {
    if |lines| == 0 then Ok(s)
    else match Step(s, lines[0])
      case Err(e) => Err(e)
      case Ok(s') => Run(s', lines[1..])
  }

  /** `GetData` after the command has run: the table built from the lines.
      Its keys are exactly the names (cut at '@') of the header lines, and
      every record is well formed; a failure names an offending line. */
  function Parse(lines: seq<string>): (r: Result<Table, ParseError>)
    ensures r.Ok? ==> r.value.Keys == HeaderKeys(lines) && WellFormed(r.value)
    ensures r.Ok? ==> forall n :: 0 <= n < |lines| && IsHeaderLine(lines[n]) ==> MatchHeader(lines[n]).Some?
    ensures r.Err? ==> r.error.line in lines && Offending(r.error)
  {
    match Run(Start, lines)
    case Err(e) => Err(e)
    case Ok(s) =>
      RunKeys(Start, lines);
      RunWellFormed(Start, lines);
      Ok(s.table)
  }

  // ---------------------------------------------------------------------
  // One line at a time
  // ---------------------------------------------------------------------

  /** The four pending-row flags agree. */
  predicate SameFlags(a: State, b: State) {
    a.rx == b.rx && a.tx == b.tx && a.rxErrors == b.rxErrors && a.txErrors == b.txErrors
  }

  /** An empty line changes nothing. */
  lemma BlankLine(s: State)
    ensures Step(s, "") == Ok(s)
  {
  }

  /** A header line either fails to match, which is fatal, or starts a fresh
      record for its interface holding only `"up"`, replacing any earlier
      record under that name; it becomes the current interface and no
      pending flag is touched. */
  lemma HeaderStep(s: State, line: string)
    requires IsHeaderLine(line)
    ensures MatchHeader(line).None? <==> Step(s, line) == Err(HeaderMismatch(line))
    ensures MatchHeader(line).Some? ==>
              var key := Interface(MatchHeader(line).value);
              var r := Step(s, line);
              && r.Ok?
              && r.value.current == key
              && r.value.table.Keys == s.table.Keys + {key}
              && r.value.table[key].Keys == {Up}
              && (r.value.table[key][Up] == "0" <==> MatchHeader(line).value.state == "DOWN")
              && (forall other :: other in s.table && other != key ==> r.value.table[other] == s.table[other])
              && SameFlags(r.value, s)
  {
    if MatchHeader(line).Some? {
      var h := MatchHeader(line).value;
      var key := Interface(h);
      var rec := map[Up := UpValue(h.state)];
      assert Step(s, line) == Ok(s.(table := s.table[key := rec], current := key));
    }
  }

  /** While a flag is pending, the next indented non-empty line is consumed
      as the row of the highest-priority pending section (RX, TX, RX errors,
      TX errors), even when it looks like a section title. */
  lemma DataRowStep(s: State, line: string, sec: Section)
    requires |line| > 0 && !IsHeaderLine(line)
    requires Flag(s, sec)
    requires forall higher: Section :: higher.Rank() < sec.Rank() ==> !Flag(s, higher)
    ensures Step(s, line) == Consume(s, sec, line)
  {
  }

  /** With no row pending, an indented line only ever sets the flag of the
      section whose title it starts with; any other indented line is ignored. */
  lemma TitleStep(s: State, line: string)
    requires |line| > 0 && !IsHeaderLine(line)
    requires Pending(s).None?
    ensures Step(s, line).Ok?
    ensures Step(s, line).value.table == s.table
    ensures Step(s, line).value.current == s.current
    ensures forall sec :: HasPrefix(line, Title(sec)) ==> Pending(Step(s, line).value) == Some(sec)
    ensures forall sec, other :: HasPrefix(line, Title(sec)) && other != sec ==>
              Flag(Step(s, line).value, sec) && !Flag(Step(s, line).value, other)
    ensures (forall sec :: !HasPrefix(line, Title(sec))) ==> Step(s, line) == Ok(s)
  {
  }

  // ---------------------------------------------------------------------
  // The whole loop
  // ---------------------------------------------------------------------

  /** Continues a run that has reached `r` over more lines. */
  function Then(r: Result<State, ParseError>, lines: seq<string>): Result<State, ParseError> {
    match r
    case Err(e) => Err(e)
    case Ok(s) => Run(s, lines)
  }

  /** The loop over two stretches of lines is the loop over the first
      continued over the second. */
  lemma {:induction false} RunAppend(s: State, a: seq<string>, b: seq<string>)
    ensures Run(s, a + b) == Then(Run(s, a), b)
    decreases |a|
  {
    if |a| == 0 {
      assert a + b == b;
    } else {
      assert (a + b)[0] == a[0];
      assert (a + b)[1..] == a[1..] + b;
      match Step(s, a[0])
      case Err(e) =>
      case Ok(s') => RunAppend(s', a[1..], b);
    }
  }

  /** The lines that are not empty. */
  function NonBlank(lines: seq<string>): (r: seq<string>)
    ensures forall i :: 0 <= i < |r| ==> |r[i]| > 0
    ensures multiset(r) == multiset(lines)[[] := 0]
  {
    if |lines| == 0 then []
    else
      assert lines == [lines[0]] + lines[1..];
      if |lines[0]| == 0 then NonBlank(lines[1..])
      else [lines[0]] + NonBlank(lines[1..])
  }

  /** Empty lines change neither the table nor the pending flags: removing
      them all leaves the outcome of the loop as it was. */
  lemma {:induction false} RunIgnoresBlankLines(s: State, lines: seq<string>)
    ensures Run(s, lines) == Run(s, NonBlank(lines))
    decreases |lines|
  {
    if |lines| > 0 {
      if |lines[0]| == 0 {
        RunIgnoresBlankLines(s, lines[1..]);
      } else {
        var nb := [lines[0]] + NonBlank(lines[1..]);
        assert nb[0] == lines[0] && nb[1..] == NonBlank(lines[1..]);
        match Step(s, lines[0])
        case Err(e) =>
        case Ok(s') => RunIgnoresBlankLines(s', lines[1..]);
      }
    }
  }

  /** The table keys the header lines among `lines` name. */
  function HeaderKeys(lines: seq<string>): set<string> {
    if |lines| == 0 then {}
    else
      var here := if IsHeaderLine(lines[0]) && MatchHeader(lines[0]).Some?
                  then {Interface(MatchHeader(lines[0]).value)} else {};
      here + HeaderKeys(lines[1..])
  }

  /** A successful run adds exactly the header names to the table. */
  lemma {:induction false} RunKeys(s: State, lines: seq<string>)
    requires Run(s, lines).Ok?
    ensures Run(s, lines).value.table.Keys == s.table.Keys + HeaderKeys(lines)
    decreases |lines|
  {
    if |lines| > 0 {
      var s' := Step(s, lines[0]).value;
      RunKeys(s', lines[1..]);
      if IsHeaderLine(lines[0]) {
        HeaderStep(s, lines[0]);
      } else if |lines[0]| > 0 && Pending(s).Some? {
        assert Step(s, lines[0]) == Consume(s, Pending(s).value, lines[0]);
      }
    }
  }

  /** What every record of the table looks like: an `"up"` field of "0" or
      "1", and otherwise only counters of the four sections, each value a
      single whitespace-free word; no interface name holds a newline. */
  predicate WellFormed(t: Table) {
    forall key :: key in t ==>
      && '\n' !in key
      && Up in t[key]
      && (t[key][Up] == "0" || t[key][Up] == "1")
      && (forall f :: f in t[key] ==> f == Up || IsCounter(f))
      && (forall f :: f in t[key] ==> Solid(t[key][f]))
  }

  /** A counter name of one of the four sections. */
  predicate IsCounter(f: string) {
    f in Counters(Rx) || f in Counters(Tx) || f in Counters(RxErrors) || f in Counters(TxErrors)
  }

  /** Filling counters into a record keeps the table well formed. */
  lemma FillWellFormed(t: Table, cur: string, names: seq<string>, vals: seq<string>)
    requires WellFormed(t)
    requires cur in t && |names| <= |vals| && Distinct(names)
    requires Up !in names && forall n :: n in names ==> IsCounter(n)
    requires forall n :: 0 <= n < |vals| ==> Solid(vals[n])
    ensures WellFormed(Fill(t, cur, names, vals))
  {
    var r := Fill(t, cur, names, vals);
    forall key | key in r
      ensures '\n' !in key
      ensures Up in r[key] && (r[key][Up] == "0" || r[key][Up] == "1")
      ensures forall f :: f in r[key] ==> f == Up || IsCounter(f)
      ensures forall f :: f in r[key] ==> Solid(r[key][f])
    {
      if key == cur {
        assert r[key][Up] == t[key][Up];
        forall f | f in r[key] ensures Solid(r[key][f]) {
          if f in names {
            var n :| 0 <= n < |names| && names[n] == f;
            assert r[key][f] == vals[n];
          }
        }
      }
    }
  }

  lemma CountersAreCounters(sec: Section)
    ensures Up !in Counters(sec)
    ensures forall n :: n in Counters(sec) ==> IsCounter(n)
  {
  }

  /** Filling a row keeps the table well formed. */
  lemma ConsumeWellFormed(s: State, sec: Section, line: string)
    requires WellFormed(s.table)
    requires Consume(s, sec, line).Ok?
    ensures WellFormed(Consume(s, sec, line).value.table)
  {
    CountersAreCounters(sec);
    CountersDistinct(sec);
    FillWellFormed(s.table, s.current, Counters(sec), Fields(line));
  }

  /** Adding or replacing one well-formed entry keeps a table well formed. */
  lemma InsertWellFormed(t: Table, key: string, rec: Record)
    requires WellFormed(t) && WellFormed(map[key := rec])
    ensures WellFormed(t[key := rec])
  {
    var single := map[key := rec];
    assert key in single && single[key] == rec;
    assert forall k :: k in t[key := rec] && k != key ==> k in t && t[key := rec][k] == t[k];
  }

  /** A fresh record holding only `up` is well formed under a name without
      a newline. */
  lemma FreshRecordWellFormed(key: string, state: string)
    requires '\n' !in key
    ensures WellFormed(map[key := map[Up := UpValue(state)]])
  {
    assert Solid(UpValue(state));
  }

  /** A matched header line keeps the table well formed. */
  lemma HeaderWellFormed(s: State, line: string)
    requires WellFormed(s.table)
    requires IsHeaderLine(line) && MatchHeader(line).Some?
    ensures WellFormed(Step(s, line).value.table)
  {
    var h := MatchHeader(line).value;
    var key := Interface(h);
    assert '\n' !in key by {
      assert key == h.name[..|key|];
    }
    FreshRecordWellFormed(key, h.state);
    InsertWellFormed(s.table, key, map[Up := UpValue(h.state)]);
    assert Step(s, line).value.table == s.table[key := map[Up := UpValue(h.state)]];
  }

  /** One step keeps the table well formed. */
  lemma StepWellFormed(s: State, line: string)
    requires WellFormed(s.table)
    requires Step(s, line).Ok?
    ensures WellFormed(Step(s, line).value.table)
  {
    if IsHeaderLine(line) {
      HeaderWellFormed(s, line);
    } else if |line| > 0 && Pending(s).Some? {
      ConsumeWellFormed(s, Pending(s).value, line);
    } else if |line| > 0 {
      TitleStep(s, line);
    }
  }

  lemma {:induction false} RunWellFormed(s: State, lines: seq<string>)
    requires WellFormed(s.table)
    requires Run(s, lines).Ok?
    ensures WellFormed(Run(s, lines).value.table)
    decreases |lines|
  {
    if |lines| > 0 {
      StepWellFormed(s, lines[0]);
      RunWellFormed(Step(s, lines[0]).value, lines[1..]);
    }
  }

  /** The conditions under which each error is raised, on its own line. */
  predicate Offending(e: ParseError) {
    match e
    case HeaderMismatch(l) => IsHeaderLine(l) && MatchHeader(l).None?
    case ShortRow(l, sec) => |l| > 0 && !IsHeaderLine(l) && |Fields(l)| < |Counters(sec)|
    case NoInterface(l) => |l| > 0 && !IsHeaderLine(l) && |Fields(l)| > 0
  }

  // ---------------------------------------------------------------------
  // Where a failed parse stops
  // ---------------------------------------------------------------------

  /** A failed run stops at line `n`: the lines before it run without error
      and the step on line `n` gives the run's error, as the exporter panics
      at the first line it cannot handle. */
  lemma {:induction false} RunStopsAt(s: State, lines: seq<string>) returns (n: nat)
    requires Run(s, lines).Err?
    ensures n < |lines| && Run(s, lines[..n]).Ok?
    ensures Step(Run(s, lines[..n]).value, lines[n]) == Run(s, lines)
    decreases |lines|
  {
    if Step(s, lines[0]).Err? {
      n := 0;
      assert lines[..0] == [];
    } else {
      var s' := Step(s, lines[0]).value;
      var n' := RunStopsAt(s', lines[1..]);
      n := n' + 1;
      var pre := lines[..n];
      assert pre[0] == lines[0] && pre[1..] == lines[1..][..n'];
      assert lines[n] == lines[1..][n'];
    }
  }

  /** A short row or a row without an interface is the line the parser
      consumed as the row of a pending section. */
  lemma RowErrorConsumed(s: State, lines: seq<string>) returns (n: nat)
    requires Run(s, lines).Err? && !Run(s, lines).error.HeaderMismatch?
    ensures n < |lines| && Run(s, lines[..n]).Ok?
    ensures var st := Run(s, lines[..n]).value;
            && Pending(st).Some?
            && Run(s, lines) == Consume(st, Pending(st).value, lines[n])
  {
    n := RunStopsAt(s, lines);
    var st := Run(s, lines[..n]).value;
    var line := lines[n];
    assert !IsHeaderLine(line) && |line| > 0;
    if Pending(st).None? {
      TitleStep(st, line);
      assert false;
    }
  }

  /** Once a header line has run, the current interface has a record, and
      it keeps one for the rest of the run. */
  lemma {:induction false} RunCurrentInTable(s: State, lines: seq<string>)
    requires Run(s, lines).Ok?
    requires s.current in s.table || exists m :: 0 <= m < |lines| && IsHeaderLine(lines[m])
    ensures Run(s, lines).value.current in Run(s, lines).value.table
    decreases |lines|
  {
    if |lines| > 0 {
      var s' := Step(s, lines[0]).value;
      if IsHeaderLine(lines[0]) {
        HeaderStep(s, lines[0]);
      } else if s.current !in s.table {
        var m :| 0 <= m < |lines| && IsHeaderLine(lines[m]);
        assert IsHeaderLine(lines[1..][m - 1]);
      }
      RunCurrentInTable(s', lines[1..]);
    }
  }

  /** A parse fails for want of an interface only on a row that comes before
      every header line of the report. */
  lemma NoInterfaceBeforeHeaders(lines: seq<string>) returns (n: nat)
    requires Parse(lines).Err? && Parse(lines).error.NoInterface?
    ensures n < |lines| && lines[n] == Parse(lines).error.line
    ensures forall m :: 0 <= m < n ==> !IsHeaderLine(lines[m])
  {
    n := RowErrorConsumed(Start, lines);
    var pre := lines[..n];
    var st := Run(Start, pre).value;
    assert st.current !in st.table;
    if exists m :: 0 <= m < n && IsHeaderLine(lines[m]) {
      var m :| 0 <= m < n && IsHeaderLine(lines[m]);
      assert IsHeaderLine(pre[m]);
      RunCurrentInTable(Start, pre);
      assert false;
    }
  }
}

=== FILE: results.dfy ===
/** Failure-carrying values used in place of the exporter's panics. */
module Results {

  /** An optional value: a regular-expression match that may not exist, a search that may fail. */
  datatype Option<+T> = None | Some(value: T)

  /** Either a computed value or the error that stopped the computation. */
  datatype Result<+T, +E> = Ok(value: T) | Err(error: E)
}

=== FILE: scanner.dfy ===
/** `bufio.Scanner` with its default split function `bufio.ScanLines`, which
    turns the command output into the lines the report parser folds over, and
    its inverse: the newline-terminated text the exposition formatter builds. */
module Scanner {
  import opened Results
  import opened Strings

  /** Drops one trailing carriage return, as `ScanLines` does for each line. */
  function DropCR(s: string): (r: string)
    ensures r <= s
    ensures |s| - 1 <= |r|
    ensures |r| < |s| <==> (|s| > 0 && s[|s| - 1] == '\r')
  {
    if |s| > 0 && s[|s| - 1] == '\r' then s[..|s| - 1] else s
  }

  /** The lines a `bufio.Scanner` yields for `text`: pieces between newlines,
      each without its trailing '\r'; a final piece without a newline is still
      a line, but text that ends in a newline yields no empty line after it. */
  function ScanLines(text: string): (lines: seq<string>)
    ensures forall i :: 0 <= i < |lines| ==> '\n' !in lines[i]
    ensures |text| > 0 <==> |lines| > 0
    decreases |text|
  {
    if |text| == 0 then []
    else match FindFrom(text, "\n", 0)
      case None =>
        assert forall k :: 0 <= k < |text| ==> text[k] != '\n' by {
          forall k | 0 <= k < |text| ensures text[k] != '\n' {
            NewlineFound(text, k);
          }
        }
        [DropCR(text)]
      case Some(i) =>
        assert forall k :: 0 <= k < i ==> text[k] != '\n' by {
          forall k | 0 <= k < i ensures text[k] != '\n' {
            NewlineFound(text, k);
          }
        }
        [DropCR(text[..i])] + ScanLines(text[i + 1..])
  }

  /** A newline at `k` is found by the search for the first newline, at `k`
      or earlier. */
  lemma NewlineFound(text: string, k: nat)
    requires k < |text|
    ensures text[k] == '\n' ==> FindFrom(text, "\n", 0).Some? && FindFrom(text, "\n", 0).value <= k
  {
    if text[k] == '\n' {
      assert text[k..k + 1] == [text[k]];
      FindFromFirst(text, "\n", 0, k);
    }
  }

  /** The scanner splits at the first newline: the line before it, without
      a trailing carriage return, then the lines of the rest. */
  lemma ScanSplit(a: string, b: string)
    requires '\n' !in a
    ensures ScanLines(a + "\n" + b) == [DropCR(a)] + ScanLines(b)
  {
    var text := a + "\n" + b;
    assert text[|a|..|a| + 1] == "\n";
    FindFromFirst(text, "\n", 0, |a|);
    var i := FindFrom(text, "\n", 0).value;
    assert text[i] == text[i..i + 1][0] == '\n';
    assert text[..i] == a;
    assert text[i + 1..] == b;
  }

  /** Text without a newline is one line, without a trailing carriage
      return: a final piece that no newline ends is still a line. */
  lemma ScanFinal(a: string)
    requires |a| > 0 && '\n' !in a
    ensures ScanLines(a) == [DropCR(a)]
  {
  }

  /** Every line followed by a newline, concatenated: how the exporter builds
      its response text. */
  function Render(lines: seq<string>): (r: string)
    ensures |r| == 0 <==> |lines| == 0
    ensures |lines| > 0 ==> HasPrefix(r, lines[0] + "\n") && r[|r| - 1] == '\n'
  {
    if |lines| == 0 then []
    else
      var r := lines[0] + "\n" + Render(lines[1..]);
      assert r[..|lines[0]| + 1] == lines[0] + "\n";
      r
  }

  /** A line the scanner can give back unchanged. */
  predicate Scannable(line: string) {
    '\n' !in line && (|line| == 0 || line[|line| - 1] != '\r')
  }

  /** Rendering distributes over concatenation of line sequences. */
  lemma {:induction false} RenderAppend(a: seq<string>, b: seq<string>)
    ensures Render(a + b) == Render(a) + Render(b)
    decreases |a|
  {
    if |a| == 0 {
      assert a + b == b;
    } else {
      assert (a + b)[1..] == a[1..] + b;
      RenderAppend(a[1..], b);
    }
  }

  /** The rendered text has exactly one newline per line. */
  lemma {:induction false} RenderNewlines(lines: seq<string>)
    requires forall i :: 0 <= i < |lines| ==> '\n' !in lines[i]
    ensures multiset(Render(lines))['\n'] == |lines|
    decreases |lines|
  {
    if |lines| > 0 {
      RenderNewlines(lines[1..]);
      assert Render(lines) == lines[0] + "\n" + Render(lines[1..]);
      assert multiset(lines[0])['\n'] == 0;
    }
  }

  /** Round trip: scanning rendered text gives the lines back. */
  lemma {:induction false} ScanRender(lines: seq<string>)
    requires forall i :: 0 <= i < |lines| ==> Scannable(lines[i])
    ensures ScanLines(Render(lines)) == lines
    decreases |lines|
  {
    if |lines| > 0 {
      var l := lines[0];
      var rest := Render(lines[1..]);
      var text := Render(lines);
      assert text == l + "\n" + rest;
      assert text[|l|..|l| + 1] == "\n";
      assert OccursAt(text, "\n", |l|);
      FindFromFirst(text, "\n", 0, |l|);
      match FindFrom(text, "\n", 0)
      case None =>
        assert false;
      case Some(i) =>
        assert text[i..i + 1][0] == text[i] == '\n';
        assert forall k :: 0 <= k < |l| ==> text[k] == l[k] != '\n';
        assert i == |l|;
        assert text[..i] == l;
        assert text[i + 1..] == rest;
        ScanRender(lines[1..]);
        assert lines == [l] + lines[1..];
    }
  }
}

=== FILE: seqs.dfy ===
/** Generic facts about sequences used to describe the formatter's output:
    mapping a function over a sequence, and concatenating equal-length
    chunks. */
module Seqs {

  /** `f` applied to every element, in order. */
  function Map<A, B>(f: A -> B, xs: seq<A>): (r: seq<B>)
    ensures |r| == |xs|
    ensures forall j :: 0 <= j < |xs| ==> r[j] == f(xs[j])
  {
    if |xs| == 0 then [] else [f(xs[0])] + Map(f, xs[1..])
  }

  /** The chunks concatenated in order. */
  function Flatten<T>(xs: seq<seq<T>>): seq<T> {
    if |xs| == 0 then [] else xs[0] + Flatten(xs[1..])
  }

  lemma MapAppend<A, B>(f: A -> B, a: seq<A>, b: seq<A>)
    ensures Map(f, a + b) == Map(f, a) + Map(f, b)
  {
  }

  /** Taking the same element out of two permutations leaves permutations. */
  lemma RemoveFromPermutation<A>(a: seq<A>, b: seq<A>, i: nat)
    requires multiset(a) == multiset(b)
    requires |a| > 0 && i < |b| && b[i] == a[0]
    ensures multiset(a[1..]) == multiset(b[..i] + b[i + 1..])
  {
    var x := a[0];
    assert b == b[..i] + [x] + b[i + 1..];
    assert a == [x] + a[1..];
    assert multiset(b) == multiset(b[..i]) + multiset{x} + multiset(b[i + 1..]);
    assert multiset(a) == multiset{x} + multiset(a[1..]);
    var rest := b[..i] + b[i + 1..];
    assert multiset(rest) == multiset(b[..i]) + multiset(b[i + 1..]);
    assert multiset(a[1..]) == multiset(a) - multiset{x};
    assert multiset(rest) == multiset(b) - multiset{x};
  }

  lemma MapSplit<A, B>(f: A -> B, b: seq<A>, i: nat)
    requires i < |b|
    ensures Map(f, b) == Map(f, b[..i]) + [f(b[i])] + Map(f, b[i + 1..])
  {
    var l := Map(f, b[..i]) + [f(b[i])] + Map(f, b[i + 1..]);
    assert |l| == |b|;
    forall j | 0 <= j < |b| ensures l[j] == Map(f, b)[j] {
      if j < i {
        assert l[j] == Map(f, b[..i])[j];
      } else if j > i {
        assert l[j] == Map(f, b[i + 1..])[j - i - 1];
      }
    }
  }

  /** Mapping over a permutation gives a permutation of the images. */
  lemma {:induction false} MapPermute<A, B>(f: A -> B, a: seq<A>, b: seq<A>)
    requires multiset(a) == multiset(b)
    ensures multiset(Map(f, a)) == multiset(Map(f, b))
    decreases |a|
  {
    if |a| == 0 {
      assert b == [];
    } else {
      var x := a[0];
      assert x in multiset(b);
      var i :| 0 <= i < |b| && b[i] == x;
      var b' := b[..i] + b[i + 1..];
      RemoveFromPermutation(a, b, i);
      MapPermute(f, a[1..], b');
      MapSplit(f, b, i);
      MapAppend(f, b[..i], b[i + 1..]);
      assert Map(f, a) == [f(x)] + Map(f, a[1..]);
    }
  }

  /** Chunk-wise permutations give a permutation of the concatenation. */
  lemma {:induction false} FlattenPermute<T>(xs: seq<seq<T>>, ys: seq<seq<T>>)
    requires |xs| == |ys|
    requires forall b :: 0 <= b < |xs| ==> multiset(xs[b]) == multiset(ys[b])
    ensures multiset(Flatten(xs)) == multiset(Flatten(ys))
    decreases |xs|
  {
    if |xs| > 0 {
      FlattenPermute(xs[1..], ys[1..]);
    }
  }

  lemma MulSucc(a: nat, w: nat)
    ensures (a + 1) * w == a * w + w
  {
  }

  /** Chunks of equal length `w` concatenate to `|xs| * w` elements. */
  lemma {:induction false} FlattenLength<T>(xs: seq<seq<T>>, w: nat)
    requires forall c :: 0 <= c < |xs| ==> |xs[c]| == w
    ensures |Flatten(xs)| == |xs| * w
    decreases |xs|
  {
    if |xs| > 0 {
      FlattenLength(xs[1..], w);
      MulSucc(|xs| - 1, w);
    }
  }

  /** An element of the concatenation comes from one of the chunks. */
  lemma {:induction false} FlattenMember<T>(xs: seq<seq<T>>, e: T) returns (c: nat)
    requires e in Flatten(xs)
    ensures c < |xs| && e in xs[c]
    decreases |xs|
  {
    if e in xs[0] {
      c := 0;
    } else {
      var c' := FlattenMember(xs[1..], e);
      c := c' + 1;
    }
  }

  /** With chunks of equal length `w`, chunk `b` is the stretch of the
      concatenation from `b * w` to `b * w + w`. */
  lemma {:induction false} FlattenChunk<T>(xs: seq<seq<T>>, w: nat, b: nat)
    requires forall c :: 0 <= c < |xs| ==> |xs[c]| == w
    requires b < |xs|
    ensures b * w + w <= |Flatten(xs)|
    ensures Flatten(xs)[b * w .. b * w + w] == xs[b]
    decreases |xs|
  {
    FlattenLength(xs[1..], w);
    if b > 0 {
      FlattenChunk(xs[1..], w, b - 1);
      MulSucc(b - 1, w);
      assert Flatten(xs) == xs[0] + Flatten(xs[1..]);
      assert Flatten(xs)[b * w .. b * w + w] == Flatten(xs[1..])[(b - 1) * w .. (b - 1) * w + w];
    }
  }

  /** An element of a stretch is the element at the same offset from the
      stretch's start. */
  lemma SliceAt<T>(s: seq<T>, a: nat, w: nat, part: seq<T>, x: nat)
    requires a + w <= |s| && s[a .. a + w] == part && x < w
    ensures s[a + x] == part[x]
  {
  }
}

=== FILE: strings.dfy ===
/** The few Go string primitives the exporter relies on: `unicode.IsSpace`,
    `strings.Fields`, `strings.HasPrefix`, substring search and
    `strings.Split(s, "@")[0]`. Strings are sequences of Unicode scalar values. */
module Strings {
  import opened Results

  /** Go's `unicode.IsSpace`: the Latin-1 spaces '\t', '\n', '\v', '\f', '\r',
      ' ', U+0085 and U+00A0, and the other characters with the Unicode
      White_Space property. */
  predicate IsSpace(c: char) {
    || c == ' '
    || ('\t' <= c <= '\r')
    || c == '\U{0085}' || c == '\U{00A0}' || c == '\U{1680}'
    || ('\U{2000}' <= c <= '\U{200A}')
    || c == '\U{2028}' || c == '\U{2029}' || c == '\U{202F}' || c == '\U{205F}' || c == '\U{3000}'
  }

  predicate IsDigit(c: char) {
    '0' <= c <= '9'
  }

  /** A string with no white space in it. */
  predicate Solid(w: string) {
    forall i :: 0 <= i < |w| ==> !IsSpace(w[i])
  }

  /** A non-empty string made of white space only. */
  predicate Gap(g: string) {
    |g| > 0 && forall i :: 0 <= i < |g| ==> IsSpace(g[i])
  }

  /** `pat` occurs in `s` starting at index `k`. */
  predicate OccursAt(s: string, pat: string, k: nat) {
    k + |pat| <= |s| && s[k..k + |pat|] == pat
  }

  /** Go's `strings.HasPrefix`. */
  predicate HasPrefix(s: string, prefix: string) {
    OccursAt(s, prefix, 0)
  }

  /** Length of the longest prefix of `s` that contains no white space. */
  function WordLength(s: string): (n: nat)
    ensures n <= |s|
    ensures Solid(s[..n])
    ensures n < |s| ==> IsSpace(s[n])
  {
    if |s| == 0 || IsSpace(s[0]) then 0 else 1 + WordLength(s[1..])
  }

  /** Go's `strings.Fields`: the maximal runs of non-space characters, in order. */
  function Fields(s: string): (ws: seq<string>)
    ensures forall i :: 0 <= i < |ws| ==> |ws[i]| > 0 && Solid(ws[i])
    decreases |s|
  {
    if |s| == 0 then []
    else if IsSpace(s[0]) then Fields(s[1..])
    else
      var n := WordLength(s);
      [s[..n]] + Fields(s[n..])
  }

  /** `s` with every white-space character removed. */
  function Squeeze(s: string): string {
    if |s| == 0 then []
    else (if IsSpace(s[0]) then [] else [s[0]]) + Squeeze(s[1..])
  }

  /** The concatenation of a sequence of strings. */
  function Concat(ws: seq<string>): string {
    if |ws| == 0 then [] else ws[0] + Concat(ws[1..])
  }

  /** A string made of white space only, possibly empty. */
  predicate Blank(g: string) {
    forall i :: 0 <= i < |g| ==> IsSpace(g[i])
  }

  /** The words `ws`, word `n` preceded by the white-space run `gaps[n]`:
      the shape of a row of the interface report, whose columns are padded
      to different widths. */
  function Row(gaps: seq<string>, ws: seq<string>): string
    requires |gaps| == |ws|
  {
    if |ws| == 0 then [] else gaps[0] + ws[0] + Row(gaps[1..], ws[1..])
  }

  /** The runs of a row: words are non-empty and free of white space, every
      word but the first has white space before it, and only white space
      may come before the first word and after the last. */
  predicate RowShape(gaps: seq<string>, ws: seq<string>, tail: string) {
    && |gaps| == |ws|
    && (|gaps| > 0 ==> Blank(gaps[0]))
    && (forall n :: 0 < n < |gaps| ==> Gap(gaps[n]))
    && (forall n :: 0 <= n < |ws| ==> |ws[n]| > 0 && Solid(ws[n]))
    && Blank(tail)
  }

  lemma {:induction false} SqueezeAppend(a: string, b: string)
    ensures Squeeze(a + b) == Squeeze(a) + Squeeze(b)
    decreases |a|
  {
    if |a| == 0 {
      assert a + b == b;
    } else {
      assert (a + b)[1..] == a[1..] + b;
      SqueezeAppend(a[1..], b);
    }
  }

  lemma {:induction false} SqueezeSolid(w: string)
    requires Solid(w)
    ensures Squeeze(w) == w
    decreases |w|
  {
    if |w| > 0 {
      SqueezeSolid(w[1..]);
    }
  }

  /** The fields of a line, put back together, are exactly its non-space
      characters: `Fields` neither loses nor invents characters. */
  lemma {:induction false} FieldsKeepText(s: string)
    ensures Concat(Fields(s)) == Squeeze(s)
    decreases |s|
  {
    if |s| == 0 {
    } else if IsSpace(s[0]) {
      FieldsKeepText(s[1..]);
    } else {
      var n := WordLength(s);
      FieldsKeepText(s[n..]);
      assert s == s[..n] + s[n..];
      SqueezeAppend(s[..n], s[n..]);
      SqueezeSolid(s[..n]);
    }
  }

  /** Leading white space never changes the fields of a string. */
  lemma {:induction false} FieldsSkipGap(g: string, s: string)
    requires Blank(g)
    ensures Fields(g + s) == Fields(s)
    decreases |g|
  {
    if |g| > 0 {
      assert (g + s)[1..] == g[1..] + s;
      FieldsSkipGap(g[1..], s);
    } else {
      assert g + s == s;
    }
  }

  /** A word followed by nothing or by white space is one field. */
  lemma FieldsWord(w: string, rest: string)
    requires |w| > 0 && Solid(w)
    requires |rest| == 0 || IsSpace(rest[0])
    ensures Fields(w + rest) == [w] + Fields(rest)
  {
    var s := w + rest;
    WordLengthOf(w, rest);
    assert s[..|w|] == w;
    assert s[|w|..] == rest;
  }

  lemma {:induction false} WordLengthOf(w: string, rest: string)
    requires Solid(w)
    requires |rest| == 0 || IsSpace(rest[0])
    ensures WordLength(w + rest) == |w|
    decreases |w|
  {
    if |w| > 0 {
      assert (w + rest)[1..] == w[1..] + rest;
      WordLengthOf(w[1..], rest);
    } else {
      assert w + rest == rest;
    }
  }

  /** Round trip: splitting a row with `Fields` recovers its words, whatever
      white space comes before, between and after them. */
  lemma {:induction false} FieldsOfRow(gaps: seq<string>, ws: seq<string>, tail: string)
    requires RowShape(gaps, ws, tail)
    ensures Fields(Row(gaps, ws) + tail) == ws
    decreases |ws|
  {
    if |ws| == 0 {
      assert Row(gaps, ws) + tail == tail + [];
      FieldsSkipGap(tail, []);
      assert Fields([]) == [];
    } else {
      var rest := Row(gaps[1..], ws[1..]) + tail;
      assert Row(gaps, ws) + tail == gaps[0] + (ws[0] + rest);
      FieldsSkipGap(gaps[0], ws[0] + rest);
      if |ws| > 1 {
        assert rest[0] == gaps[1][0];
      }
      FieldsWord(ws[0], rest);
      FieldsOfRow(gaps[1..], ws[1..], tail);
      assert ws == [ws[0]] + ws[1..];
    }
  }

  /** A white-space character in front of a row joins its first gap. */
  lemma SpaceBeforeRow(c: char, gaps: seq<string>, ws: seq<string>, tail: string)
    requires IsSpace(c) && RowShape(gaps, ws, tail) && |ws| > 0
    ensures RowShape([[c] + gaps[0]] + gaps[1..], ws, tail)
  {
    var gs := [[c] + gaps[0]] + gaps[1..];
    assert forall n :: 0 < n < |gs| ==> gs[n] == gaps[n];
  }

  lemma SpaceBeforeRowText(c: char, gaps: seq<string>, ws: seq<string>, tail: string)
    requires |gaps| == |ws| > 0
    ensures [c] + (Row(gaps, ws) + tail) == Row([[c] + gaps[0]] + gaps[1..], ws) + tail
  {
    var r := Row(gaps[1..], ws[1..]);
    RowCons(gaps[0], ws[0], gaps[1..], ws[1..]);
    RowCons([c] + gaps[0], ws[0], gaps[1..], ws[1..]);
    assert [gaps[0]] + gaps[1..] == gaps;
    assert [ws[0]] + ws[1..] == ws;
    AppendAssoc([c], gaps[0] + ws[0] + r, tail);
    AppendAssoc([c], gaps[0] + ws[0], r);
    AppendAssoc([c], gaps[0], ws[0]);
  }

  /** A word in front of a row that starts with white space becomes its
      first word. */
  lemma WordBeforeRow(w: string, gaps: seq<string>, ws: seq<string>, tail: string)
    requires |w| > 0 && Solid(w) && RowShape(gaps, ws, tail)
    requires |ws| > 0 ==> |gaps[0]| > 0
    ensures RowShape([[]] + gaps, [w] + ws, tail)
  {
    var gs := [[]] + gaps;
    assert forall n :: 0 < n < |gs| ==> gs[n] == gaps[n - 1];
    assert forall n :: 0 < n < |gs| ==> ([w] + ws)[n] == ws[n - 1];
  }

  lemma WordBeforeRowText(w: string, gaps: seq<string>, ws: seq<string>, tail: string)
    requires |gaps| == |ws|
    ensures w + (Row(gaps, ws) + tail) == Row([[]] + gaps, [w] + ws) + tail
  {
    RowCons([], w, gaps, ws);
    AppendAssoc(w, Row(gaps, ws), tail);
    assert [] + w == w;
  }

  /** Concatenation is associative. */
  lemma AppendAssoc(a: string, b: string, c: string)
    ensures a + (b + c) == (a + b) + c
  {
  }

  /** A row with one more word in front: its gap, then the word, then the
      rest of the row. */
  lemma RowCons(g: string, w: string, gaps: seq<string>, ws: seq<string>)
    requires |gaps| == |ws|
    ensures Row([g] + gaps, [w] + ws) == g + w + Row(gaps, ws)
  {
    assert ([g] + gaps)[1..] == gaps;
    assert ([w] + ws)[1..] == ws;
  }

  /** A row whose first gap is empty starts with its first word. */
  lemma RowStartsWithWord(gaps: seq<string>, ws: seq<string>, tail: string)
    requires RowShape(gaps, ws, tail) && |ws| > 0 && |gaps[0]| == 0
    ensures |Row(gaps, ws) + tail| > 0 && !IsSpace((Row(gaps, ws) + tail)[0])
  {
    assert Row(gaps, ws) == gaps[0] + ws[0] + Row(gaps[1..], ws[1..]);
    assert (Row(gaps, ws) + tail)[0] == ws[0][0];
  }

  /** Conversely, every string is a row whose words are its fields: the
      fields are the maximal runs of non-space characters, none of them
      split and none merged. */
  lemma {:induction false} FieldsAreRuns(s: string) returns (gaps: seq<string>, tail: string)
    ensures RowShape(gaps, Fields(s), tail)
    ensures s == Row(gaps, Fields(s)) + tail
    decreases |s|
  {
    if |s| == 0 {
      gaps, tail := [], [];
    } else if IsSpace(s[0]) {
      var g', t' := FieldsAreRuns(s[1..]);
      gaps, tail := SpaceRuns(s, g', t');
    } else {
      var n := WordLength(s);
      var g', t' := FieldsAreRuns(s[n..]);
      gaps, tail := WordRuns(s, n, g', t');
    }
  }

  /** A string that starts with white space is the row of its remainder
      with that character added to the first gap (or to the tail). */
  lemma SpaceRuns(s: string, g': seq<string>, t': string) returns (gaps: seq<string>, tail: string)
    requires |s| > 0 && IsSpace(s[0])
    requires RowShape(g', Fields(s[1..]), t') && s[1..] == Row(g', Fields(s[1..])) + t'
    ensures RowShape(gaps, Fields(s), tail)
    ensures s == Row(gaps, Fields(s)) + tail
  {
    var ws := Fields(s[1..]);
    assert Fields(s) == ws;
    assert s == [s[0]] + s[1..];
    if |ws| == 0 {
      assert s[1..] == t';
      gaps, tail := [], s;
      assert Row(gaps, ws) + tail == s;
    } else {
      SpaceBeforeRow(s[0], g', ws, t');
      SpaceBeforeRowText(s[0], g', ws, t');
      gaps, tail := [[s[0]] + g'[0]] + g'[1..], t';
    }
  }

  /** A string that starts with a word is the row of what follows the word
      with the word added in front, after an empty first gap. */
  lemma WordRuns(s: string, n: nat, g': seq<string>, t': string) returns (gaps: seq<string>, tail: string)
    requires |s| > 0 && !IsSpace(s[0]) && n == WordLength(s)
    requires RowShape(g', Fields(s[n..]), t') && s[n..] == Row(g', Fields(s[n..])) + t'
    ensures RowShape(gaps, Fields(s), tail)
    ensures s == Row(gaps, Fields(s)) + tail
  {
    var ws := Fields(s[n..]);
    assert Fields(s) == [s[..n]] + ws;
    if |ws| > 0 && |g'[0]| == 0 {
      RowStartsWithWord(g', ws, t');
      assert false;
    }
    WordBeforeRow(s[..n], g', ws, t');
    WordBeforeRowText(s[..n], g', ws, t');
    gaps, tail := [[]] + g', t';
    assert s == s[..n] + s[n..];
  }

  /** The first occurrence of `pat` in `s` at or after index `from`. */
  function FindFrom(s: string, pat: string, from: nat): (r: Option<nat>)
    ensures r.Some? ==> from <= r.value && OccursAt(s, pat, r.value)
    decreases |s| - from
  {
    if from + |pat| > |s| then None
    else if OccursAt(s, pat, from) then Some(from)
    else FindFrom(s, pat, from + 1)
  }

  /** `FindFrom` misses no occurrence: whenever `pat` occurs at `k` at or
      after `from`, the search succeeds at `k` or earlier. */
  lemma {:induction false} FindFromFirst(s: string, pat: string, from: nat, k: nat)
    requires from <= k && OccursAt(s, pat, k)
    ensures FindFrom(s, pat, from).Some? && FindFrom(s, pat, from).value <= k
    decreases k - from
  {
    if from < k && !OccursAt(s, pat, from) {
      FindFromFirst(s, pat, from + 1, k);
    }
  }

  /** A search that found `r` found the first occurrence: any occurrence at
      or after `from` is at `r` or later. */
  lemma FindFromBefore(s: string, pat: string, from: nat, r: nat, k: nat)
    requires FindFrom(s, pat, from) == Some(r)
    requires from <= k && OccursAt(s, pat, k)
    ensures r <= k
  {
    FindFromFirst(s, pat, from, k);
  }

  /** A single character is an occurrence of the one-character pattern. */
  lemma CharOccurs(s: string, k: nat)
    requires k < |s|
    ensures OccursAt(s, [s[k]], k)
  {
    assert s[k..k + 1] == [s[k]];
  }

  /** Go's `strings.Split(s, string(c))[0]`: the part of `s` before the first `c`. */
  function Before(s: string, c: char): (r: string)
    ensures r <= s
    ensures c !in r
    ensures |r| < |s| ==> s[|r|] == c
  {
    if |s| == 0 || s[0] == c then [] else [s[0]] + Before(s[1..], c)
  }

  /** `Before` is pinned down by its contract: any prefix free of `c` that
      stops at a `c` or at the end is that result. */
  lemma {:induction false} BeforeUnique(s: string, c: char, p: string)
    requires p <= s && c !in p
    requires |p| < |s| ==> s[|p|] == c
    ensures Before(s, c) == p
    decreases |s|
  {
    if |s| > 0 && s[0] != c {
      assert p[0] == s[0];
      BeforeUnique(s[1..], c, p[1..]);
      assert p == [p[0]] + p[1..];
    }
  }
}
